=== FILE: README.md ===
# Grid pathfinding demo — a Dafny model of its engine

The demo keeps a 20×20 grid of cell codes (EMPTY, OBSTACLE, START, GOAL,
PATH, EXPLORED), a start position, a goal position and an edit mode. The user
edits the grid with clicks, then runs one of four searches (A*, Dijkstra,
breadth-first, depth-first) from the start to the goal. A search marks the
cells it expands EXPLORED, counts them, walks the predecessor map back from
the goal, and draws the path cells PATH.

This project models that engine in `script.js`:

- the grid state and its edits: initialisation, the three edit branches of a
  canvas click once the mouse position is mapped to a cell, clearing the search
  marks, and clearing the grid;
- `getNeighbors`, the Manhattan `heuristic` and `reconstructPath`;
- the four searches;
- `findPath`: the early return without both endpoints, and the dispatch. The message it shows is modelled as a boolean verdict, in its corrected form (see Findings).

The grid is an immutable `seq<seq<Cell>>` indexed `g[y][x]`. Each search is
a method that takes the grid and returns the marked grid, the path and
`exploredCount`. Ghost outputs report:

- whether the goal was taken off the frontier;
- which cells were expanded;
- the goal's predecessor chain.

All four searches are specified by one predicate, `SearchSpec.Outcome`:

- only expanded cells change, to EXPLORED, except START and GOAL cells and
  the cells of the path, which become PATH;
- `exploredCount` counts the expanded cells that are neither START nor GOAL;
- on reaching the goal, the path is the predecessor chain with START cells
  dropped, and the chain is a walk of neighbour steps back to the start with
  no cell twice;
- on an empty frontier the path is empty, and the expanded cells, start
  included, are closed under taking neighbours;
- every expanded cell is reachable from the start.

From this follows the main result. A search reaches the goal exactly when
some walk of neighbour steps leads from the start to it (`ReachedIffReachable`).
A search that runs out of cells has expanded exactly the cells reachable from
the start (`ExhaustedExpandsReachable`).

Two pairs of searches share a loop:

- breadth-first and depth-first run one loop that takes the next cell from
  the front of the frontier (`shift`) or from the back (`pop`);
- Dijkstra and A* run one loop that stable-sorts the open list by a key and
  takes its front.

The best-first key is the distance for Dijkstra, and the distance plus the
heuristic for A*. `Array.prototype.sort` is stable, and is modelled by a
stable insertion sort. The invariant is proved about that sort, so ties
between equal keys are broken exactly as in the browser.

Modules:

- `Wrappers`: the `Option` type;
- `GridModel`: cells, coordinates, the grid;
- `Editing`: the board and its edits;
- `Neighbors`: neighbours, the heuristic, walks;
- `StableSort`: the sort;
- `Reconstruction`: predecessor chains and `reconstructPath`;
- `SearchSpec`: the shared outcome;
- `Bookkeeping`: the predecessor invariants all searches keep;
- `Uninformed`: breadth-first and depth-first search;
- `BestFirst`: Dijkstra and A*;
- `App`: `findPath`.

## Model

| member | source | states |
|---|---|---|
| Editing.InitializeGrid | script.js:38-50 | The new board is valid, with START at (2,2), GOAL at (17,17) and every other cell EMPTY. |
| Editing.ValidSeparatesEndpoints | script.js:128-149 | On a valid board the start and the goal never share a cell, since each placement refuses the other endpoint's cell. |
| Editing.PlaceStart | script.js:128-138 | A click on the GOAL cell changes nothing. Otherwise the old start cell becomes EMPTY, the clicked cell becomes START, the mode returns to none, and no other cell changes. |
| Editing.PlaceGoal | script.js:139-149 | The mirror image for the goal: refused on the START cell; otherwise the old goal cell is emptied and the clicked cell becomes GOAL, with no other change. |
| Editing.ToggleObstacle | script.js:150-157 | EMPTY and OBSTACLE swap on the clicked cell, any other code is left alone, and no other cell, endpoint or mode changes. |
| Editing.ToggleTwiceIsIdentity | script.js:150-157 | Toggling the same cell twice restores the board. |
| Editing.Click | script.js:118-158 | A click outside the grid or in no mode changes nothing. Only set-start mode can move the start, and only to the clicked cell; likewise for the goal. Cells other than the clicked one and the two endpoints are untouched. An in-bounds click dispatches on the mode: set-start places the start, set-goal places the goal, toggle flips the obstacle, each with the effects stated for that branch. |
| Editing.ClickPreservesValid | script.js:126-157 | Every click edit keeps START drawn exactly at the start position and GOAL exactly at the goal position. |
| Editing.ClearPath | script.js:190-200 | No PATH or EXPLORED cell remains: those cells become EMPTY, and every other cell, the endpoints and the mode are kept. |
| Editing.ClearPathIdempotent | script.js:190-200 | Clearing the search marks twice is the same as clearing them once. |
| Editing.ClearPathKeepsLayout | script.js:190-200 | Clearing the marks moves no obstacle and keeps a valid board valid. |
| Editing.ClearGrid | script.js:202-216 | Every cell but the endpoints becomes EMPTY; GOAL is redrawn at the goal and START at the start, and the endpoints and mode are kept. |
| Editing.ClearGridKeepsValid | script.js:202-216 | Clearing a valid board leaves a valid board. |
| GridModel.Fresh | script.js:489-497 | The cells a push loop appends, skipping seen cells and marking pushed ones seen, are exactly the listed cells not seen before. |
| GridModel.FreshIsDistinct | script.js:489-497 | That push loop never appends a cell twice, and never one that was already seen. |
| Neighbors.GetNeighbors | script.js:352-373 | The result holds exactly the in-bounds, non-obstacle cells one step away, each once, in the order up, right, down, left, and at most four of them. |
| Neighbors.NeighborsFollowObstacles | script.js:364 | Grids with the same obstacles give the same neighbour lists, so EXPLORED, PATH, START and GOAL marks never change them. |
| Neighbors.Heuristic | script.js:375-377 | The Manhattan distance is zero exactly when the two positions are equal. |
| Neighbors.HeuristicSymmetric | script.js:375-377 | The heuristic is symmetric. |
| Neighbors.AdjacentIsUnitDistance | script.js:354-359 | Two cells are one getNeighbors direction apart exactly when their heuristic distance is 1. |
| Neighbors.HeuristicConsistent | script.js:375-377 | One neighbour step changes the heuristic to any target by at most the step cost 1. |
| Neighbors.HeuristicAdmissible | script.js:375-377 | The heuristic never overestimates: the ends of a walk of k neighbour steps are at heuristic distance at most k. |
| Neighbors.WalkStaysInClosedSet | script.js:352-373 | A walk that starts in a set closed under getNeighbors never leaves it. |
| Neighbors.ClosedSetSeparates | script.js:352-373 | A neighbour-closed set that holds a but not b proves b unreachable from a. |
| Neighbors.ReachableFollowsObstacles | script.js:364 | Reachability depends only on where the obstacles are. |
| Neighbors.ReachableFromFollowsObstacles | script.js:364 | The set of cells reachable from a position depends only on where the obstacles are. |
| Reconstruction.SkipStart | script.js:341-344 | A cell is pushed onto the path exactly when it is on the walked chain and is not a START cell. |
| Reconstruction.ChainRanksFall | script.js:339-345 | Following cameFrom visits cells of strictly falling rank, so the walk back ends. |
| Reconstruction.ChainDistinct | script.js:339-345 | The walk back from the goal never meets a cell twice. |
| Reconstruction.ChainEndsAtStart | script.js:339-345 | The walk back ends at the start, the one ranked cell without a predecessor. |
| Reconstruction.ChainFollowsLinks | script.js:339-346 | The chain is exactly what the `while (cameFrom.has(...))` loop visits: each entry is the recorded predecessor of the one before, and the loop stops at the first cell without one. |
| Reconstruction.ChainIsBackWalk | script.js:339-345 | Each step of the walk back goes to a neighbour of the previous cell. |
| Reconstruction.ReconstructPath | script.js:335-350 | The returned path is the predecessor chain minus START cells. The grid shows PATH exactly on the path cells and is unchanged elsewhere. |
| StableSort.Insert | script.js:283-287 | Inserting into a sorted list keeps it sorted and is a permutation with one more element. |
| StableSort.SortBy | script.js:283-287 | The sorted list is a permutation of the input, ordered by key. |
| StableSort.SortByIsStable | script.js:283-287 | For every key value, the entries with that key keep their relative order, as Array.prototype.sort guarantees. |
| StableSort.FirstMinimum | script.js:283-289 | The index of the first entry of least key: no entry has a smaller key, and every earlier entry has a strictly larger one. |
| StableSort.SortByHeadIsFirstMinimum | script.js:283-289 | The front of the sorted list, which is the cell `shift` takes, is the earliest entry of least key in the unsorted list. |
| SearchSpec.ReachedIffReachable | script.js:259-263 | For every search, the goal is reached exactly when a walk of neighbour steps leads from the start to it. An empty frontier therefore really means the goal is unreachable. |
| SearchSpec.ExhaustedExpandsReachable | script.js:471-503 | A search whose frontier runs dry has expanded exactly the cells reachable from the start: no fewer, since the expanded set is neighbour-closed, and no more, since every expanded cell is reachable. |
| SearchSpec.ExploredBound | script.js:482-485 | exploredCount never exceeds the number of non-obstacle cells. |
| SearchSpec.PathIsChainWithoutStart | script.js:335-350 | When START is drawn only at the start, the chain is the path followed by the start. Goal, path and start then form a walk read backwards, with no cell twice. |
| SearchSpec.ChainWithoutStart | script.js:341-344 | A chain that ends at the only START cell loses exactly its last entry when the path is built. |
| SearchSpec.CountedGrows | script.js:482-485 | Expanding one more cell raises exploredCount by one exactly when that cell is neither START nor GOAL. |
| SearchSpec.MarkOne | script.js:482-485 | Expanding a cell marks it EXPLORED and counts it, unless it is START or GOAL, and keeps the marks in step with the expanded cells. |
| SearchSpec.MarkedKeepsLayout | script.js:482-485 | Marking expanded cells creates and removes no obstacle and no START cell. |
| SearchSpec.OutcomeDrawn | script.js:335-350 | After any search the obstacles and the START cells are where they were, every path cell is drawn PATH, every other changed cell is EXPLORED, exploredCount stays within the non-obstacle cells, and a non-empty path means the goal is reachable. |
| SearchSpec.NextToStartOutcome | script.js:335-350 | A goal one step from the start is always reached; when the search links it straight to the start, the path is that one-cell chain with START cells dropped. |
| Bookkeeping.RankedGrows | script.js:489-497 | New predecessor links all point to the newly expanded cell, so every link still points to a cell expanded earlier. |
| Bookkeeping.LinksGrow | script.js:489-497 | Every predecessor link stays one neighbour step. |
| Bookkeeping.GoalFound | script.js:475-480 | When the goal leaves the frontier, its predecessor chain runs through expanded cells only, one neighbour step at a time, without repeats, and ends at the start; every expanded cell is reachable from the start. |
| Bookkeeping.SettledReachable | script.js:489-497 | Every expanded cell is reachable from the start, because its predecessor chain read backwards is a walk from the start to it. |
| Bookkeeping.FinishReached | script.js:475-480 | Returning the reconstructed path at the goal meets the shared search outcome. |
| Bookkeeping.FinishExhausted | script.js:502-503 | Returning an empty path when the frontier runs dry meets the shared search outcome, because the expanded cells are neighbour-closed and reachable from the start. |
| Bookkeeping.GoalNextToStart | script.js:339-345 | When the start was expanded and linked every neighbour to itself, a goal next to it walks back to the start in one step. |
| Uninformed.Take | script.js:472-519 | Taking from the queue's front (`shift`, bfs at line 472) or the stack's back (`pop`, dfs at line 519) splits off one entry and keeps the others once each. |
| Uninformed.Discover | script.js:487-497 | The unvisited neighbours, in getNeighbors order and each once, are appended at the back of the frontier, marked visited and linked to the current cell. Visited ones keep their link. |
| Uninformed.DiscoverCounts | script.js:487-497 | Every push marks one new cell visited. |
| Uninformed.DiscoverDistinct | script.js:487-497 | The frontier never holds a cell twice. |
| Uninformed.DiscoverLinks | script.js:487-497 | Discovery either keeps a link or adds one from the current cell to a neighbour not visited before. |
| Uninformed.TraverseStarts | script.js:460-469 | Seeding the frontier and the visited set with the start establishes the loop invariant. |
| Uninformed.ExpandStep | script.js:482-497 | Expanding a non-goal cell keeps the loop invariant and shrinks the termination measure. |
| Uninformed.Expand | script.js:482-497 | One non-goal pass marks and counts the cell, discovers its neighbours, keeps the loop invariant and the start's links, and shrinks the termination measure. |
| Uninformed.ReachGoal | script.js:475-480 | At the goal, the reconstructed path meets the shared search outcome, and a goal next to the start has the start as its only predecessor. |
| Uninformed.ExpandKeepsStartLinks | script.js:489-497 | The start is expanded first and links all its neighbours; a visited cell is never relinked, so each neighbour of the start keeps the start as predecessor. |
| Uninformed.Traverse | script.js:459-504 | The shared breadth-first/depth-first loop terminates and meets the shared search outcome. A goal next to the start is reached with the start as its only predecessor. |
| Uninformed.Bfs | script.js:459-504 | Breadth-first search meets the shared search outcome: obstacles and START stay, path cells are PATH and other changes EXPLORED, exploredCount is bounded by the non-obstacle cells, a non-empty path means a reachable goal, and a goal next to the start gets the one-cell chain minus START as its path. |
| Uninformed.Dfs | script.js:506-551 | Depth-first search meets the same outcome and the same drawing, bound, reachability and neighbour-goal facts as breadth-first search. |
| BestFirst.Relax | script.js:308-325 | A closed neighbour is skipped. A neighbour neither closed nor open is appended at the back of the open list with distance one more than the current cell's. An open one is relinked only on a strictly shorter distance. Distances never grow, and fScore stays distance plus bias. |
| BestFirst.RelaxAll | script.js:306-326 | After the neighbour loop, the open list is the old one followed by the neighbours that were neither closed nor open, in getNeighbors order and each once; no entry is duplicated, and distances never grow. |
| BestFirst.RelaxAllLinks | script.js:306-326 | Every link after the neighbour loop is either an old one with its old distance, or a new one from the current cell to a non-closed neighbour at one more step. |
| BestFirst.RelaxAllKeepsClosed | script.js:311 | The neighbour loop never changes the recorded distance of a closed cell. |
| BestFirst.PopBest | script.js:283-289 | The front after sorting is the earliest open cell of least key. The rest is the other open cells, once each. For every key value, the taken cell followed by the rest lists the open cells of that key in their original order. |
| BestFirst.Initial | script.js:276-280 | The search begins with only the start seen, nothing closed and no links. |
| BestFirst.SearchStarts | script.js:276-280 | The initial tables establish the loop invariant. |
| BestFirst.SearchStep | script.js:299-326 | Closing, marking and relaxing one non-goal cell keeps the loop invariant and closes one more cell. |
| BestFirst.ChainLength | script.js:313-324 | The distance recorded for a linked cell equals the number of steps on its predecessor chain. |
| BestFirst.StartFirstAfterLinks | script.js:317-324 | Distances stay non-negative, and a neighbour of the start, linked to it at distance 1, is never relinked: a later cell offers at least 2, and only a strictly shorter distance relinks. |
| BestFirst.StepKeepsStartFirst | script.js:299-326 | One non-goal pass keeps the distances non-negative and every neighbour of a closed start linked to the start. |
| BestFirst.Expand | script.js:299-326 | One non-goal pass keeps the loop invariant and closes one new cell. |
| BestFirst.ReachGoal | script.js:292-297 | At the goal, the reconstructed path meets the shared search outcome. The chain is the walk back along the recorded predecessors, the goal's recorded distance is its number of steps, and a goal next to the start has the start as its only predecessor. |
| BestFirst.Search | script.js:282-332 | The shared Dijkstra/A* loop terminates and meets the shared search outcome. Its final tables close exactly the expanded cells, give the start distance 0, each linked cell one more than its predecessor and each key the distance plus the bias. When it reaches the goal, the chain is the walk back along those tables' predecessors and the goal's distance is its length; the chain of a goal next to the start is the start alone. |
| BestFirst.Dijkstra | script.js:391-457 | Dijkstra meets the shared search outcome. Its final tables key every cell by its distance, and on reaching the goal the chain follows their predecessors with the goal's distance equal to its step count; it draws, bounds exploredCount and treats a goal next to the start as breadth-first search does. |
| BestFirst.AStar | script.js:266-333 | A* meets the shared search outcome. Its final tables key every cell by gScore plus the Manhattan distance to the goal, and on reaching the goal the chain follows their predecessors with the goal's gScore equal to its step count; it draws, bounds exploredCount and treats a goal next to the start as breadth-first search does. |
| App.Run | script.js:249-257 | Each algorithm choice meets the shared search outcome, keeps obstacles and START in place, bounds exploredCount, and gives a goal next to the start the one-cell chain minus START as its path. |
| App.FindPath | script.js:236-264 | Without both endpoints nothing changes and nothing is reported. Otherwise the search runs on the cleared grid, and the board keeps its endpoints, mode and validity. The goal is reached exactly when it is reachable; a reached goal gives a backward walk, goal, path, start, with no repeats; an unreached one gives an empty path, and exploredCount is then the number of cells reachable from the start, less the START cell. exploredCount stays within the non-obstacle cells. A goal next to the start gets an empty path, so the message as written reports it unreachable, while the corrected verdict holds exactly when the goal is reachable. |
| App.ReachFacts | script.js:259-263 | A search on the cleared board reaches the goal exactly when it is reachable on the board; the path is empty exactly for an unreached goal or one next to the start; the corrected verdict tells reachability, and the one as written fails for a goal next to the start. |
| App.CountFacts | script.js:482-485 | exploredCount stays within the non-obstacle cells, and after an exhausted search it counts every cell reachable from the start but START. |
| App.ExhaustedCount | script.js:482-503 | On a valid board, an exhausted search has expanded exactly the reachable cells, and exploredCount counts them all but the START cell. |
| App.ReportsPathAsWritten | script.js:259-263 | The message as written: a path is reported exactly when the path holds a cell. |
| App.ReportsPath | script.js:259-263 | The corrected verdict: a path holds a cell, or the goal is next to the start. |
| App.OutcomeKeepsValid | script.js:242-257 | A search on a valid board neither draws nor erases START or GOAL. |
| App.NeighbourBoard | script.js:38-50 | The initial board after a set-start click on (16,17) is valid, with the start next to the goal at (17,17). |
| App.NeighbourRun | script.js:236-264 | On a valid board with the start at (16,17) beside the goal at (17,17), findPath with any algorithm returns an empty path although the goal is reachable, so the message as written says no path was found while the corrected verdict reports one. |
| App.AsWrittenMissesNeighbour | script.js:259-263 | On a valid board whose start is next to the goal, such as NeighbourBoard, the goal is reachable, yet the empty path findPath returns makes the message as written report it unreachable; the corrected verdict reports the path. |

## Left out

- Rendering (`renderGrid`, the canvas, colours), the DOM, buttons, the info box and its message strings, and mouse-drag handling. They are I/O. `renderGrid` calls inside the searches change no state and are dropped.
- The mapping from mouse pixels to a cell. `Editing.Click` takes the cell coordinates directly.
- `generateRandomObstacles`, because it draws on `Math.random`.
- An algorithm string other than the four known ones. The page offers only those four, and the source would then read `.path` of `undefined`.
- Uninformed.Traverse, BestFirst.Search: they require the start cell to be walkable. `findPath` always searches from the START cell, which is never an obstacle.
- BestFirst.Dijkstra: Dijkstra's `distance` map is modelled as the shared distance table, with the sort key equal to the distance.
- BestFirst.Search: optimality of Dijkstra's and A*'s paths, and breadth-first shortest paths, are not proved. The contracts state validity, exactness about reachability and the marks, not path length minimality.
- StableSort.SortBy: the engine's sort is specified as a stable sort. It is modelled by insertion sort, the unique stable ordering, not by the browser's algorithm.
- Coordinates are unbounded integers. The source's numbers stay small integers on a 20×20 grid, so no wrap-around arises.

## Findings

| source | as written | input that shows it | evidently intended | confidence | as-written member | corrected member |
|---|---|---|---|---|---|---|
| script.js:259-263 | "Path found!" is shown only when `result.path.length > 0`, otherwise "No path found. The goal is unreachable." | The initial board with the start moved to (16,17), beside the goal at (17,17). Every search links the goal straight to the start, and `reconstructPath` drops START, so the path is empty. | Report a path whenever the goal was reached, including a goal one step from the start. | high; not executed | App.AsWrittenMissesNeighbour, App.NeighbourRun | App.FindPath |

=== FILE: app.dfy ===
/**
 * findPath: refuse to search without both endpoints, clear the marks of the
 * previous search, and run the selected algorithm from startPos to goalPos.
 */
module App {
  import opened Wrappers
  import opened GridModel
  import opened Neighbors
  import opened Reconstruction
  import opened SearchSpec
  import opened Editing
  import Uninformed
  import BestFirst

  /** The values of the algorithm selector. */
  datatype Algorithm = AStar | Dijkstra | Bfs | Dfs

  /** What a search hands back: the path cells and exploredCount. */
  datatype SearchResult = SearchResult(path: seq<Coord>, explored: nat)

  /** The if-chain over the selected algorithm. */
  method Run(g: Grid, start: Coord, goal: Coord, algorithm: Algorithm)
    returns (g': Grid, path: seq<Coord>, explored: nat,
             ghost reached: bool, ghost expanded: set<Coord>, ghost chain: seq<Coord>)
    requires Shaped(g) && Walkable(g, start)
    ensures Outcome(g, start, goal, g', path, explored, reached, expanded, chain)
    ensures Drawn(g, g', path) && explored <= |Passable(g)|
    ensures |path| > 0 ==> Reachable(g, start, goal)
    ensures Linked(g, start, goal) ==> path == SkipStart(g, [start])
  {
    match algorithm
    case AStar =>
      ghost var final;
      g', path, explored, reached, expanded, chain, final := BestFirst.AStar(g, start, goal);
    case Dijkstra =>
      ghost var final;
      g', path, explored, reached, expanded, chain, final := BestFirst.Dijkstra(g, start, goal);
    case Bfs =>
      g', path, explored, reached, expanded, chain := Uninformed.Bfs(g, start, goal);
    case Dfs =>
      g', path, explored, reached, expanded, chain := Uninformed.Dfs(g, start, goal);
  }

  /**
   * The message findPath shows as written: "Path found!" exactly when the
   * path holds a cell, "No path found. The goal is unreachable." otherwise.
   */
  function ReportsPathAsWritten(r: SearchResult): bool {
    |r.path| > 0
  }

  /**
   * The verdict the message evidently intends: the path leaves out START and
   * GOAL, so a goal next to the start is reached with an empty path.
   */
  function ReportsPath(start: Coord, goal: Coord, r: SearchResult): bool {
    |r.path| > 0 || Adjacent(start, goal)
  }

  /** The initial board after a click in MODE_SET_START on (16,17), next to the goal at (17,17). */
  function NeighbourBoard(): (b: Board)
    ensures Valid(b)
    ensures b.start == Some(Coord(16, 17)) && b.goal == Some(InitialGoal) && Adjacent(Coord(16, 17), InitialGoal)
  {
    var b0 := InitializeGrid(Board([], None, None, SetStartMode));
    ClickPreservesValid(b0, 16, 17);
    Click(b0, 16, 17)
  }

  /**
   * On a valid board with the start next to the goal, such as NeighbourBoard,
   * findPath returns an empty path (FindPath's contract), so the message as
   * written calls the goal unreachable although one step reaches it; the
   * intended verdict reports the path.
   */
  lemma AsWrittenMissesNeighbour(b: Board, r: SearchResult)
    requires Valid(b) && b.start.Some? && b.goal.Some? && Adjacent(b.start.value, b.goal.value)
    requires r.path == []
    ensures Reachable(b.grid, b.start.value, b.goal.value)
    ensures !ReportsPathAsWritten(r) && ReportsPath(b.start.value, b.goal.value, r)
  {
    assert IsWalk(b.grid, [b.start.value, b.goal.value]);
  }

  /**
   * findPath on a board whose START and GOAL marks sit at startPos and
   * goalPos:
   *  - without both endpoints nothing changes and there is no result;
   *  - otherwise the search runs on the cleared grid, the board keeps its
   *    endpoints, mode and validity, and the result is exact about
   *    reachability: the goal is reached exactly when a walk leads from the
   *    start to it, and then goal, path and start read as a walk backwards
   *    with no cell twice; an unreached goal leaves the path empty;
   *  - exploredCount never exceeds the number of non-obstacle cells;
   *  - a goal next to the start gets an empty path, so the message reports
   *    the path by the corrected verdict, which holds exactly when the goal
   *    is reachable.
   */
  method FindPath(b: Board, algorithm: Algorithm)
    returns (b': Board, result: Option<SearchResult>, found: bool,
             ghost reached: bool, ghost expanded: set<Coord>, ghost chain: seq<Coord>)
    requires Valid(b)
    ensures b.start.None? || b.goal.None? ==> b' == b && result == None && !found
    ensures b.start.Some? && b.goal.Some? ==>
      && result.Some?
      && b'.start == b.start && b'.goal == b.goal && b'.mode == b.mode
      && Valid(b')
      && Outcome(ClearPath(b).grid, b.start.value, b.goal.value, b'.grid, result.value.path, result.value.explored,
                 reached, expanded, chain)
      && (reached <==> Reachable(b.grid, b.start.value, b.goal.value))
      && (reached ==> BackWalk(b.grid, [b.goal.value] + result.value.path + [b.start.value])
                      && Distinct([b.goal.value] + result.value.path + [b.start.value]))
      && (!reached ==> result.value.path == [])
      && result.value.explored <= |Passable(b.grid)|
      && (Adjacent(b.start.value, b.goal.value) ==> result.value.path == [])
      && found == ReportsPath(b.start.value, b.goal.value, result.value)
      && (found <==> Reachable(b.grid, b.start.value, b.goal.value))
      && (Adjacent(b.start.value, b.goal.value) ==> found && !ReportsPathAsWritten(result.value))
      && (!reached ==> expanded == ReachableFrom(b.grid, b.start.value)
                       && result.value.explored == |ReachableFrom(b.grid, b.start.value)| - 1)
  {
    if b.start.None? || b.goal.None? {
      b', result, found, reached, expanded, chain := b, None, false, false, {}, [];
      return;
    }
    var start, goal := b.start.value, b.goal.value;
    var cleared := ClearPath(b);
    ClearPathKeepsLayout(b);
    var g', path, explored;
    g', path, explored, reached, expanded, chain := Run(cleared.grid, start, goal, algorithm);
    b' := Board(g', b.start, b.goal, b.mode);
    result := Some(SearchResult(path, explored));
    found := ReportsPath(start, goal, result.value);
    OutcomeKeepsValid(cleared, g', path, explored, reached, expanded, chain);
    ReachFacts(b, g', path, explored, reached, expanded, chain);
    CountFacts(b, g', path, explored, reached, expanded, chain);
  }

  /**
   * findPath run on NeighbourBoard with any algorithm: the cells are
   * neighbours, so the path comes back empty and the message as written
   * says no path was found, while the corrected verdict reports one.
   */
  method NeighbourRun(algorithm: Algorithm) returns (b: Board, result: SearchResult, found: bool)
    ensures Valid(b) && b.start == Some(Coord(16, 17)) && b.goal == Some(InitialGoal)
    ensures result.path == [] && found
    ensures !ReportsPathAsWritten(result)
    ensures Reachable(b.grid, Coord(16, 17), InitialGoal)
  {
    b := NeighbourBoard();
    var b', r, f, reached, expanded, chain := FindPath(b, algorithm);
    result, found := r.value, f;
    AsWrittenMissesNeighbour(b, result);
  }

  /**
   * What a search on the cleared board says about the board itself: the goal
   * is reached exactly when it is reachable; goal, path and start then form
   * a backward walk without repeats, empty of path cells exactly when the
   * goal is next to the start; so the corrected verdict, and not the one as
   * written, tells reachability.
   */
  lemma ReachFacts(b: Board, g': Grid, path: seq<Coord>, explored: nat,
                   reached: bool, expanded: set<Coord>, chain: seq<Coord>)
    requires Valid(b) && b.start.Some? && b.goal.Some?
    requires Outcome(ClearPath(b).grid, b.start.value, b.goal.value, g', path, explored, reached, expanded, chain)
    requires Linked(ClearPath(b).grid, b.start.value, b.goal.value) ==> path == SkipStart(ClearPath(b).grid, [b.start.value])
    ensures var start, goal := b.start.value, b.goal.value;
      && (reached <==> Reachable(b.grid, start, goal))
      && (reached ==> BackWalk(b.grid, [goal] + path + [start]) && Distinct([goal] + path + [start]))
      && (!reached ==> path == [])
      && (Adjacent(start, goal) ==> path == [])
      && (ReportsPath(start, goal, SearchResult(path, explored)) <==> Reachable(b.grid, start, goal))
      && (Adjacent(start, goal) ==> !ReportsPathAsWritten(SearchResult(path, explored)))
  {
    var start, goal := b.start.value, b.goal.value;
    var g0 := ClearPath(b).grid;
    ClearPathKeepsLayout(b);
    ValidSeparatesEndpoints(b);
    ReachedIffReachable(g0, start, goal, g', path, explored, reached, expanded, chain);
    ReachableFollowsObstacles(g0, b.grid, start, goal);
    if reached {
      PathIsChainWithoutStart(g0, start, goal, g', path, explored, reached, expanded, chain);
      BackWalkFollowsObstacles(g0, b.grid, [goal] + path + [start]);
      if path == [] {
        assert Linked(b.grid, ([goal] + path + [start])[1], ([goal] + path + [start])[0]);
      }
    }
    if Adjacent(start, goal) {
      assert IsWalk(b.grid, [start, goal]);
    }
  }

  /**
   * exploredCount stays within the non-obstacle cells; a search that runs
   * out of cells has expanded exactly the cells reachable from the start and
   * counts all of them but the START cell.
   */
  lemma CountFacts(b: Board, g': Grid, path: seq<Coord>, explored: nat,
                   reached: bool, expanded: set<Coord>, chain: seq<Coord>)
    requires Valid(b) && b.start.Some? && b.goal.Some?
    requires Outcome(ClearPath(b).grid, b.start.value, b.goal.value, g', path, explored, reached, expanded, chain)
    ensures explored <= |Passable(b.grid)|
    ensures !reached ==> expanded == ReachableFrom(b.grid, b.start.value)
                         && explored == |ReachableFrom(b.grid, b.start.value)| - 1
  {
    var g0 := ClearPath(b).grid;
    ClearPathKeepsLayout(b);
    ExploredBound(g0, b.start.value, b.goal.value, g', path, explored, reached, expanded, chain);
    PassableFollowsObstacles(g0, b.grid);
    ExhaustedCount(ClearPath(b), g', path, explored, reached, expanded, chain);
    ReachableFromFollowsObstacles(g0, b.grid, b.start.value);
  }

  /**
   * On a valid board a search that runs out of cells has expanded exactly the
   * cells reachable from the start, and exploredCount counts all of them but
   * the START cell.
   */
  lemma ExhaustedCount(b: Board, g': Grid, path: seq<Coord>, explored: nat,
                       reached: bool, expanded: set<Coord>, chain: seq<Coord>)
    requires Valid(b) && b.start.Some? && b.goal.Some?
    requires Outcome(b.grid, b.start.value, b.goal.value, g', path, explored, reached, expanded, chain)
    ensures !reached ==> expanded == ReachableFrom(b.grid, b.start.value)
                         && explored == |ReachableFrom(b.grid, b.start.value)| - 1
  {
    ExhaustedExpandsReachable(b.grid, b.start.value, b.goal.value, g', path, explored, reached, expanded, chain);
    if !reached {
      assert Counted(b.grid, expanded) == expanded - {b.start.value};
    }
  }

  /** A search on a valid board draws neither START nor GOAL anywhere, and removes neither. */
  lemma OutcomeKeepsValid(b: Board, g': Grid, path: seq<Coord>, explored: nat,
                          reached: bool, expanded: set<Coord>, chain: seq<Coord>)
    requires Valid(b) && b.start.Some? && b.goal.Some?
    requires Outcome(b.grid, b.start.value, b.goal.value, g', path, explored, reached, expanded, chain)
    ensures Valid(Board(g', b.start, b.goal, b.mode))
  {
    if reached {
      forall c | c in path
        ensures InBounds(c) && At(b.grid, c) != Start && At(b.grid, c) != Goal
      {
        assert c in chain && !Labelled(b.grid, c, Start);
        var i :| 0 <= i < |chain| && chain[i] == c;
        assert c in expanded;
      }
    }
  }

  /** Grids with the same obstacles have the same non-obstacle cells. */
  lemma PassableFollowsObstacles(a: Grid, b: Grid)
    requires Shaped(a) && Shaped(b) && SameObstacles(a, b)
    ensures Passable(a) == Passable(b)
  {
    assert forall c :: Walkable(a, c) <==> Walkable(b, c);
  }

  /** Grids with the same obstacles admit the same backward walks. */
  lemma BackWalkFollowsObstacles(a: Grid, b: Grid, w: seq<Coord>)
    requires Shaped(a) && Shaped(b) && SameObstacles(a, b) && BackWalk(a, w)
    ensures BackWalk(b, w)
  {
    assert forall c, n :: Linked(a, c, n) <==> Linked(b, c, n);
  }
}

=== FILE: bestfirst.dfy ===
/**
 * dijkstra and astar. Both keep an open list and a closed set, stable-sort
 * the open list by a key and `shift` its front, close that cell, mark it
 * EXPLORED, and relax its neighbours: a closed neighbour is skipped, a new
 * one is pushed, and an open one is updated only on a strictly shorter
 * distance. dijkstra sorts by the distance from the start; astar by fScore,
 * the distance plus the Manhattan heuristic to the goal.
 */
module BestFirst {
  import opened GridModel
  import opened Neighbors
  import opened Reconstruction
  import opened SearchSpec
  import opened StableSort
  import opened Bookkeeping

  /** What the open list is sorted by: dijkstra's distance, or astar's fScore. */
  datatype Ranking = ByDistance | ByEstimate

  /** The sort key minus the distance: nothing for dijkstra, the heuristic for astar. */
  function Bias(ranking: Ranking, n: Coord, goal: Coord): nat {
    match ranking
    case ByDistance => 0
    case ByEstimate => Heuristic(n, goal)
  }

  /**
   * The open list, the closed set, the predecessor map, the distance from
   * the start (astar's gScore, dijkstra's distance) and the sort key (astar's
   * fScore; for dijkstra it is the distance itself).
   */
  datatype Tables = Tables(open: seq<Coord>, closed: set<Coord>, cameFrom: map<Coord, Coord>,
                           gScore: map<Coord, int>, fScore: map<Coord, int>)

  /** Every cell with a distance has a sort key, and it is the distance plus the bias. */
  ghost predicate Estimated(t: Tables, ranking: Ranking, goal: Coord) {
    && t.fScore.Keys == t.gScore.Keys
    && forall c :: c in t.gScore ==> t.fScore[c] == t.gScore[c] + Bias(ranking, c, goal)
  }

  /** The cells the search has seen: closed or waiting in the open list. */
  function Seen(t: Tables): set<Coord> {
    t.closed + Elems(t.open)
  }

  /**
   * The body of the loop over `current`'s neighbours for one neighbour `n`:
   * a closed `n` is skipped; one not in the open list is pushed with
   * distance one more than `current`'s; an open one takes that distance and
   * `current` as predecessor only when it is strictly shorter.
   */
  function Relax(t: Tables, current: Coord, n: Coord, goal: Coord, ranking: Ranking): (r: Tables)
    requires current in t.gScore && t.gScore.Keys == Seen(t)
    ensures r.closed == t.closed && r.open == if n in Seen(t) then t.open else t.open + [n]
    ensures Elems(r.open) == Elems(t.open) + ({n} - t.closed) && r.gScore.Keys == Seen(r)
    ensures n in t.closed ==> r == t
    ensures Distinct(t.open) ==> Distinct(r.open)
    ensures forall c :: c in t.gScore ==> r.gScore[c] <= t.gScore[c]
    ensures forall c :: c in t.gScore && c != n ==> r.gScore[c] == t.gScore[c]
    ensures n !in t.closed && (n !in t.open || t.gScore[current] + 1 < t.gScore[n]) ==>
              n in r.cameFrom && r.cameFrom[n] == current && r.gScore[n] == t.gScore[current] + 1
    ensures n in t.open && t.gScore[current] + 1 >= t.gScore[n] ==> r == t
    ensures forall c :: c != n ==> (c in r.cameFrom <==> c in t.cameFrom)
    ensures forall c :: c in t.cameFrom && c != n ==> r.cameFrom[c] == t.cameFrom[c]
    ensures Estimated(t, ranking, goal) ==> Estimated(r, ranking, goal)
  {
    if n in t.closed then t
    else
      var tentative := t.gScore[current] + 1;
      if n !in t.open then
        assert forall i :: 0 <= i < |t.open| ==> (t.open + [n])[i] == t.open[i];
        Tables(t.open + [n], t.closed, t.cameFrom[n := current], t.gScore[n := tentative],
               t.fScore[n := tentative + Bias(ranking, n, goal)])
      else if tentative >= t.gScore[n] then t
      else
        Tables(t.open, t.closed, t.cameFrom[n := current], t.gScore[n := tentative],
               t.fScore[n := tentative + Bias(ranking, n, goal)])
  }

  /** The whole loop over the neighbours, in the order getNeighbors lists them. */
  function RelaxAll(t: Tables, current: Coord, nbrs: seq<Coord>, goal: Coord, ranking: Ranking): (r: Tables)
    requires current in t.closed && current in t.gScore && t.gScore.Keys == Seen(t)
    ensures r.closed == t.closed && r.open == t.open + Fresh(nbrs, Seen(t))
    ensures Elems(r.open) == Elems(t.open) + (Elems(nbrs) - t.closed) && r.gScore.Keys == Seen(r)
    ensures Distinct(t.open) ==> Distinct(r.open)
    ensures forall c :: c in t.gScore ==> r.gScore[c] <= t.gScore[c]
    ensures Estimated(t, ranking, goal) ==> Estimated(r, ranking, goal)
    decreases |nbrs|
  {
    if nbrs == [] then t
    else
      var t' := Relax(t, current, nbrs[0], goal, ranking);
      ElemsCons(nbrs);
      assert Seen(t') == Seen(t) + {nbrs[0]};
      RelaxAll(t', current, nbrs[1..], goal, ranking)
  }

  /**
   * After the loop over the neighbours every link is either one the tables
   * had, with its distance, or a new one from `current` to a neighbour that
   * was not closed, one step further than `current`.
   */
  lemma {:induction false} RelaxAllLinks(t: Tables, current: Coord, nbrs: seq<Coord>, goal: Coord, ranking: Ranking)
    requires current in t.closed && current in t.gScore && t.gScore.Keys == Seen(t)
    requires t.cameFrom.Keys <= t.gScore.Keys
    ensures var r := RelaxAll(t, current, nbrs, goal, ranking);
      forall c :: c in r.cameFrom ==>
        && c in r.gScore
        && ((c in t.cameFrom && r.cameFrom[c] == t.cameFrom[c] && r.gScore[c] == t.gScore[c])
            || (c in nbrs && c !in t.closed && r.cameFrom[c] == current && r.gScore[c] == t.gScore[current] + 1))
    decreases |nbrs|
  {
    if nbrs != [] {
      var t1 := Relax(t, current, nbrs[0], goal, ranking);
      RelaxAllLinks(t1, current, nbrs[1..], goal, ranking);
      var r := RelaxAll(t, current, nbrs, goal, ranking);
      assert r == RelaxAll(t1, current, nbrs[1..], goal, ranking);
      assert t1.gScore[current] == t.gScore[current];
      forall c | c in r.cameFrom
        ensures c in r.gScore
        ensures (c in t.cameFrom && r.cameFrom[c] == t.cameFrom[c] && r.gScore[c] == t.gScore[c])
                || (c in nbrs && c !in t.closed && r.cameFrom[c] == current && r.gScore[c] == t.gScore[current] + 1)
      {
        if c in t1.cameFrom && r.cameFrom[c] == t1.cameFrom[c] && r.gScore[c] == t1.gScore[c] {
          if c != nbrs[0] {
            assert c in t.cameFrom;
          } else if t1 != t {
            assert t1.cameFrom[c] == current;
          }
        }
      }
    }
  }

  /** The loop over the neighbours never changes the distance of a closed cell. */
  lemma {:induction false} RelaxAllKeepsClosed(t: Tables, current: Coord, nbrs: seq<Coord>, goal: Coord, ranking: Ranking)
    requires current in t.closed && current in t.gScore && t.gScore.Keys == Seen(t)
    ensures var r := RelaxAll(t, current, nbrs, goal, ranking);
      forall c :: c in t.closed && c in t.gScore ==> r.gScore[c] == t.gScore[c]
    decreases |nbrs|
  {
    if nbrs != [] {
      var t1 := Relax(t, current, nbrs[0], goal, ranking);
      RelaxAllKeepsClosed(t1, current, nbrs[1..], goal, ranking);
    }
  }

  /**
   * The loop over the neighbours links every neighbour it pushes and may
   * relink open ones; it never links a closed cell.
   */
  lemma {:induction false} RelaxAllKeys(t: Tables, current: Coord, nbrs: seq<Coord>, goal: Coord, ranking: Ranking)
    requires current in t.closed && current in t.gScore && t.gScore.Keys == Seen(t)
    ensures var r := RelaxAll(t, current, nbrs, goal, ranking);
      && t.cameFrom.Keys + (Elems(nbrs) - Seen(t)) <= r.cameFrom.Keys
      && r.cameFrom.Keys <= t.cameFrom.Keys + (Elems(nbrs) - t.closed)
    decreases |nbrs|
  {
    if nbrs != [] {
      var n := nbrs[0];
      var t1 := Relax(t, current, n, goal, ranking);
      RelaxAllKeys(t1, current, nbrs[1..], goal, ranking);
      RelaxKeys(t, current, n, goal, ranking);
      ElemsCons(nbrs);
      KeyBoundsCompose(t.cameFrom.Keys, t1.cameFrom.Keys, RelaxAll(t1, current, nbrs[1..], goal, ranking).cameFrom.Keys,
                       Seen(t), Seen(t1), t.closed, n, Elems(nbrs[1..]));
    }
  }

  /** One relaxation links its neighbour when it pushes it, and never links a closed cell. */
  lemma RelaxKeys(t: Tables, current: Coord, n: Coord, goal: Coord, ranking: Ranking)
    requires current in t.gScore && t.gScore.Keys == Seen(t)
    ensures var r := Relax(t, current, n, goal, ranking);
      && t.cameFrom.Keys + ({n} - Seen(t)) <= r.cameFrom.Keys
      && r.cameFrom.Keys <= t.cameFrom.Keys + ({n} - t.closed)
      && Seen(r) == Seen(t) + ({n} - t.closed)
  {
  }

  /** Set algebra for two rounds of the key bounds. */
  lemma KeyBoundsCompose(k0: set<Coord>, k1: set<Coord>, k2: set<Coord>, seen0: set<Coord>, seen1: set<Coord>,
                         closed: set<Coord>, n: Coord, more: set<Coord>)
    requires closed <= seen0
    requires k0 + ({n} - seen0) <= k1 <= k0 + ({n} - closed) && seen1 == seen0 + ({n} - closed)
    requires k1 + (more - seen1) <= k2 <= k1 + (more - closed)
    ensures k0 + (({n} + more) - seen0) <= k2 <= k0 + (({n} + more) - closed)
  {
  }

  /**
   * `openSet.sort(...)` then `openSet.shift()`: the entry taken is the first
   * one of least key in the open list as it stood (the sort is stable), and
   * the rest stays in key order.
   */
  function PopBest(open: seq<Coord>, key: map<Coord, int>): (r: (Coord, seq<Coord>))
    requires |open| > 0 && Elems(open) <= key.Keys
    ensures Keyed(open, key) && r.0 == open[FirstMinimum(open, key)]
    ensures forall c :: c in open ==> key[r.0] <= key[c]
    ensures multiset(open) == multiset{r.0} + multiset(r.1) && |r.1| == |open| - 1
    ensures Keyed(r.1, key) && SortedBy(r.1, key)
    ensures Elems(open) == {r.0} + Elems(r.1)
    ensures Distinct(open) ==> Distinct(r.1) && r.0 !in r.1
    ensures forall k :: (if key[r.0] == k then [r.0] else []) + WithKey(r.1, key, k) == WithKey(open, key, k)
  {
    KeyedByElems(open, key);
    var sorted := SortBy(open, key);
    SortByIsStableAll(open, key);
    SortByHeadIsFirstMinimum(open, key);
    LeastOfAll(open, key);
    SortedPermutation(open, sorted);
    SplitHead(sorted, key);
    (sorted[0], sorted[1..])
  }

  lemma KeyedByElems(s: seq<Coord>, key: map<Coord, int>)
    requires Elems(s) <= key.Keys
    ensures Keyed(s, key)
  {
    forall i | 0 <= i < |s| ensures s[i] in key {
      assert s[i] in Elems(s);
    }
  }

  /** The first entry of least key has a key no larger than any entry's. */
  lemma LeastOfAll(s: seq<Coord>, key: map<Coord, int>)
    requires Keyed(s, key) && |s| > 0
    ensures forall c :: c in s ==> key[s[FirstMinimum(s, key)]] <= key[c]
  {
    forall c | c in s ensures key[s[FirstMinimum(s, key)]] <= key[c] {
      var i :| 0 <= i < |s| && s[i] == c;
    }
  }

  /** Reordering keeps the entries and keeps a list without repeats one. */
  lemma SortedPermutation(a: seq<Coord>, b: seq<Coord>)
    requires multiset(a) == multiset(b)
    ensures Elems(a) == Elems(b)
    ensures Distinct(a) ==> Distinct(b)
  {
    forall c ensures c in a <==> c in b {
      assert c in a <==> c in multiset(a);
      assert c in b <==> c in multiset(b);
    }
    if Distinct(a) {
      PermutationKeepsDistinct(a, b);
    }
  }

  /** Taking the head off a sorted list leaves a sorted list of the other entries. */
  lemma SplitHead(s: seq<Coord>, key: map<Coord, int>)
    requires |s| > 0 && Keyed(s, key) && SortedBy(s, key)
    ensures s == [s[0]] + s[1..] && multiset(s) == multiset{s[0]} + multiset(s[1..])
    ensures Keyed(s[1..], key) && SortedBy(s[1..], key)
    ensures Elems(s) == {s[0]} + Elems(s[1..])
    ensures Distinct(s) ==> Distinct(s[1..]) && s[0] !in s[1..]
  {
    assert s == [s[0]] + s[1..];
    ElemsCons(s);
    assert forall i :: 0 <= i < |s[1..]| ==> s[1..][i] == s[i + 1];
  }

  /**
   * Open-list bookkeeping: the seen cells are the closed ones and the open
   * ones, apart from each other and each open once; the goal is never
   * closed; and `start` is the first cell closed.
   */
  ghost predicate OpenInv(g: Grid, start: Coord, goal: Coord, t: Tables)
    requires Shaped(g)
  {
    && (forall c :: c in Seen(t) ==> Walkable(g, c))
    && start in Seen(t)
    && Distinct(t.open)
    && t.closed !! Elems(t.open)
    && goal !in t.closed
    && ((t.closed == {} && t.open == [start]) || start in t.closed)
    && |t.closed| <= |AllCoords()|
  }

  /**
   * Distance bookkeeping: every seen cell has a distance and a sort key,
   * `start` is at distance 0, and every linked cell is one step further than
   * its predecessor.
   */
  ghost predicate ScoreInv(start: Coord, goal: Coord, ranking: Ranking, t: Tables) {
    && t.gScore.Keys == Seen(t)
    && Estimated(t, ranking, goal)
    && start in t.gScore && t.gScore[start] == 0
    && (forall c {:trigger t.cameFrom[c]} :: c in t.cameFrom ==>
          c in t.gScore && t.cameFrom[c] in t.gScore && t.gScore[c] == t.gScore[t.cameFrom[c]] + 1)
  }

  /** Everything the search loop keeps. */
  ghost predicate SearchInv(g: Grid, start: Coord, goal: Coord, ranking: Ranking, gm: Grid, explored: nat,
                            t: Tables, rank: map<Coord, nat>)
    requires Shaped(g)
  {
    && Marked(g, gm, t.closed, explored)
    && OpenInv(g, start, goal, t)
    && RankInv(t.cameFrom, t.closed, rank)
    && LinkInv(g, start, t.cameFrom, Seen(t), t.closed)
    && ScoreInv(start, goal, ranking, t)
    && StartFirst(g, start, t)
  }

  /** The tables before the loop: only `start`, open at distance 0. */
  function Initial(start: Coord, goal: Coord, ranking: Ranking): (t: Tables)
    ensures Seen(t) == {start} && t.closed == {} && t.cameFrom == map[]
  {
    assert Elems([start]) == {start};
    Tables([start], {}, map[], map[start := 0], map[start := Bias(ranking, start, goal)])
  }

  /** `current` taken off the open list, leaving `rest`, and closed. */
  function Close(t: Tables, current: Coord, rest: seq<Coord>): Tables {
    Tables(rest, t.closed + {current}, t.cameFrom, t.gScore, t.fScore)
  }

  lemma SearchStarts(g: Grid, start: Coord, goal: Coord, ranking: Ranking)
    requires Shaped(g) && Walkable(g, start)
    ensures SearchInv(g, start, goal, ranking, g, 0, Initial(start, goal, ranking), map[])
  {
    assert Counted(g, {}) == {};
  }

  /** Closing `current` keeps the seen cells and moves it out of the open list. */
  lemma CloseKeepsSeen(t: Tables, current: Coord, rest: seq<Coord>)
    requires Elems(t.open) == {current} + Elems(rest) && current !in rest && t.closed !! Elems(t.open)
    ensures Seen(Close(t, current, rest)) == Seen(t)
    ensures (t.closed + {current}) !! Elems(rest) && current !in t.closed
  {
  }

  /**
   * Set algebra of one pass: `current` moves from the open cells to the
   * closed ones, and the neighbours not closed join the open ones.
   */
  lemma OpenPartition(closed: set<Coord>, open: set<Coord>, rest: set<Coord>, current: Coord,
                      found: set<Coord>, open': set<Coord>)
    requires closed !! open && open == {current} + rest && current !in rest
    requires open' == rest + (found - (closed + {current}))
    ensures (closed + {current}) !! open'
    ensures (closed + {current}) + open' == (closed + open) + found
    ensures current !in closed
  {
  }

  /** Closing `current` and relaxing its neighbours keeps the open-list bookkeeping. */
  lemma StepKeepsOpen(g: Grid, start: Coord, goal: Coord, ranking: Ranking, t: Tables,
                      current: Coord, rest: seq<Coord>, nbrs: seq<Coord>)
    requires Shaped(g) && OpenInv(g, start, goal, t) && t.gScore.Keys == Seen(t) && current in t.gScore
    requires Elems(t.open) == {current} + Elems(rest) && Distinct(rest) && current !in rest && current != goal
    requires forall n :: n in nbrs ==> Linked(g, current, n)
    ensures var t0 := Close(t, current, rest);
      && Seen(t0) == Seen(t) && |t0.closed| == |t.closed| + 1
      && OpenInv(g, start, goal, RelaxAll(t0, current, nbrs, goal, ranking))
  {
    var t0 := Close(t, current, rest);
    CloseKeepsSeen(t, current, rest);
    var r := RelaxAll(t0, current, nbrs, goal, ranking);
    OpenPartition(t.closed, Elems(t.open), Elems(rest), current, Elems(nbrs), Elems(r.open));
    StaysWalkable(g, current, Seen(t), Elems(nbrs), Seen(r));
    SubsetCardinality(r.closed, AllCoords());
    if t.closed == {} && t.open == [start] {
      assert Elems(t.open) == {start};
    }
  }

  /** Seen cells and neighbours of `current` are all walkable. */
  lemma StaysWalkable(g: Grid, current: Coord, seen: set<Coord>, found: set<Coord>, seen': set<Coord>)
    requires Shaped(g) && (forall c :: c in seen ==> Walkable(g, c))
    requires forall n :: n in found ==> Linked(g, current, n)
    requires seen' == seen + found
    ensures forall c :: c in seen' ==> Walkable(g, c) && c in AllCoords()
  {
  }

  /**
   * New links all come from the newly closed `current` to cells not closed,
   * so ranking `current` last keeps links pointing to earlier ranks.
   */
  lemma RankedAfterLinks(cameFrom: map<Coord, Coord>, cameFrom': map<Coord, Coord>, rank: map<Coord, nat>,
                         closed: set<Coord>, current: Coord)
    requires RankInv(cameFrom, closed, rank) && current !in closed
    requires forall c {:trigger cameFrom'[c]} :: c in cameFrom' ==>
               (c in cameFrom && cameFrom'[c] == cameFrom[c]) || (c !in closed + {current} && cameFrom'[c] == current)
    ensures RankInv(cameFrom', closed + {current}, rank[current := |closed|])
  {
    RankGrows(rank, rank[current := |closed|], closed, current);
    RankedGrows(cameFrom, cameFrom', rank, current, |closed|);
  }

  /** Closing `current` ranks it last and keeps links pointing to earlier ranks. */
  lemma StepKeepsRanks(ranking: Ranking, goal: Coord, t: Tables, rank: map<Coord, nat>,
                       current: Coord, rest: seq<Coord>, nbrs: seq<Coord>)
    requires RankInv(t.cameFrom, t.closed, rank) && current !in t.closed
    requires Seen(Close(t, current, rest)) == t.gScore.Keys && current in t.gScore && t.cameFrom.Keys <= t.gScore.Keys
    ensures RankInv(RelaxAll(Close(t, current, rest), current, nbrs, goal, ranking).cameFrom,
                    t.closed + {current}, rank[current := |t.closed|])
  {
    var t0 := Close(t, current, rest);
    assert t0.closed == t.closed + {current} && t0.cameFrom == t.cameFrom;
    var r := RelaxAll(t0, current, nbrs, goal, ranking);
    RelaxAllLinks(t0, current, nbrs, goal, ranking);
    forall c | c in r.cameFrom
      ensures (c in t.cameFrom && r.cameFrom[c] == t.cameFrom[c]) || (c !in t.closed + {current} && r.cameFrom[c] == current)
    {
    }
    RankedAfterLinks(t.cameFrom, r.cameFrom, rank, t.closed, current);
  }

  /** The keys squeezed between the two bounds are the seen cells but `start`. */
  lemma KeysSqueeze(keys: set<Coord>, keys': set<Coord>, seen: set<Coord>, seen': set<Coord>,
                    closed: set<Coord>, found: set<Coord>, start: Coord)
    requires keys == seen - {start} && start in closed && closed <= seen
    requires seen' == seen + found
    requires keys + (found - seen) <= keys' <= keys + (found - closed)
    ensures keys' == seen' - {start}
  {
  }

  /** Closing `current` and relaxing its neighbours keeps the predecessor bookkeeping. */
  lemma StepKeepsLinks(g: Grid, start: Coord, goal: Coord, ranking: Ranking, t: Tables,
                       current: Coord, rest: seq<Coord>, nbrs: seq<Coord>)
    requires Shaped(g) && LinkInv(g, start, t.cameFrom, Seen(t), t.closed)
    requires Seen(Close(t, current, rest)) == Seen(t) && t.gScore.Keys == Seen(t) && current in t.gScore
    requires start in t.closed + {current} && t.cameFrom.Keys <= t.gScore.Keys
    requires forall n :: n in nbrs <==> Linked(g, current, n)
    ensures var r := RelaxAll(Close(t, current, rest), current, nbrs, goal, ranking);
      LinkInv(g, start, r.cameFrom, Seen(r), t.closed + {current})
  {
    var t0 := Close(t, current, rest);
    var r := RelaxAll(t0, current, nbrs, goal, ranking);
    assert Seen(r) == Seen(t) + Elems(nbrs);
    RelaxAllKeys(t0, current, nbrs, goal, ranking);
    KeysSqueeze(t.cameFrom.Keys, r.cameFrom.Keys, Seen(t), Seen(r), t0.closed, Elems(nbrs), start);
    RelaxAllLinks(t0, current, nbrs, goal, ranking);
    LinksGrow(g, t.cameFrom, r.cameFrom, current, nbrs);
    ClosureGrows(g, t.closed, Seen(t), Seen(r), current, nbrs);
  }

  /** Closing `current` and relaxing its neighbours keeps every link one step long and `start` at 0. */
  lemma StepKeepsScores(start: Coord, goal: Coord, ranking: Ranking, t: Tables, rank: map<Coord, nat>,
                        current: Coord, rest: seq<Coord>, nbrs: seq<Coord>)
    requires ScoreInv(start, goal, ranking, t) && RankInv(t.cameFrom, t.closed, rank)
    requires Seen(Close(t, current, rest)) == Seen(t) && current in t.gScore && start in t.closed + {current}
    ensures ScoreInv(start, goal, ranking, RelaxAll(Close(t, current, rest), current, nbrs, goal, ranking))
  {
    var t0 := Close(t, current, rest);
    var r := RelaxAll(t0, current, nbrs, goal, ranking);
    assert Estimated(t0, ranking, goal);
    RelaxAllLinks(t0, current, nbrs, goal, ranking);
    RelaxAllKeepsClosed(t0, current, nbrs, goal, ranking);
    forall c | c in r.cameFrom
      ensures c in r.gScore && r.cameFrom[c] in r.gScore && r.gScore[c] == r.gScore[r.cameFrom[c]] + 1
    {
      if c in t.cameFrom && r.cameFrom[c] == t.cameFrom[c] && r.gScore[c] == t.gScore[c] {
        assert t.cameFrom[c] in rank;
      }
    }
  }

  /** Neighbours listed on the marked grid are the neighbours on the original one. */
  lemma NeighboursOnMarked(g: Grid, gm: Grid, closed: set<Coord>, explored: nat, current: Coord, nbrs: seq<Coord>)
    requires Shaped(g) && Marked(g, gm, closed, explored) && forall c :: c in closed ==> Walkable(g, c)
    requires forall n :: n in nbrs <==> Linked(gm, current, n)
    ensures forall n :: n in nbrs <==> Linked(g, current, n)
  {
    MarkedKeepsLayout(g, gm, closed, explored);
  }

  /** The first cell closed is `start`. */
  lemma StartClosedFirst(start: Coord, t: Tables, current: Coord, rest: seq<Coord>)
    requires (t.closed == {} && t.open == [start]) || start in t.closed
    requires Elems(t.open) == {current} + Elems(rest) && current !in rest
    ensures start in t.closed + {current}
  {
    if t.closed == {} && t.open == [start] {
      assert Elems(t.open) == {start};
    }
  }

  /** The grid and open-list half of one pass. */
  lemma StepKeepsGridAndOpen(g: Grid, start: Coord, goal: Coord, ranking: Ranking, gm: Grid, explored: nat,
                             t: Tables, current: Coord, rest: seq<Coord>, gm': Grid, explored': nat,
                             nbrs: seq<Coord>, t': Tables)
    requires Elems(t.open) == {current} + Elems(rest) && Distinct(rest) && current !in rest && current != goal
    requires current in t.gScore && Seen(Close(t, current, rest)) == t.gScore.Keys
    requires t' == RelaxAll(Close(t, current, rest), current, nbrs, goal, ranking)
    requires Shaped(g) && Shaped(gm) && Shaped(gm') && InBounds(current)
    requires At(gm, current) != Start && At(gm, current) != Goal ==> gm' == Put(gm, current, Explored) && explored' == explored + 1
    requires At(gm, current) == Start || At(gm, current) == Goal ==> gm' == gm && explored' == explored
    requires nbrs == GetNeighbors(gm', current)
    requires Marked(g, gm, t.closed, explored) && OpenInv(g, start, goal, t) && t.gScore.Keys == Seen(t)
    ensures Marked(g, gm', t'.closed, explored') && OpenInv(g, start, goal, t')
    ensures |t'.closed| == |t.closed| + 1
    ensures forall n :: n in nbrs <==> Linked(g, current, n)
    ensures start in t.closed + {current}
  {
    MarkOne(g, gm, t.closed, explored, current, gm', explored');
    NeighboursOnMarked(g, gm', t.closed + {current}, explored', current, nbrs);
    StartClosedFirst(start, t, current, rest);
    StepKeepsOpen(g, start, goal, ranking, t, current, rest, nbrs);
  }

  /** The predecessor and distance half of one pass. */
  lemma StepKeepsLinksAndScores(g: Grid, start: Coord, goal: Coord, ranking: Ranking, t: Tables, rank: map<Coord, nat>,
                                current: Coord, rest: seq<Coord>, nbrs: seq<Coord>, t': Tables)
    requires current !in t.closed && start in t.closed + {current}
    requires current in t.gScore && Seen(Close(t, current, rest)) == t.gScore.Keys
    requires t' == RelaxAll(Close(t, current, rest), current, nbrs, goal, ranking)
    requires Shaped(g) && forall n :: n in nbrs <==> Linked(g, current, n)
    requires RankInv(t.cameFrom, t.closed, rank) && LinkInv(g, start, t.cameFrom, Seen(t), t.closed)
    requires ScoreInv(start, goal, ranking, t)
    ensures RankInv(t'.cameFrom, t'.closed, rank[current := |t.closed|])
    ensures LinkInv(g, start, t'.cameFrom, Seen(t'), t'.closed)
    ensures ScoreInv(start, goal, ranking, t')
  {
    StepKeepsRanks(ranking, goal, t, rank, current, rest, nbrs);
    StepKeepsLinks(g, start, goal, ranking, t, current, rest, nbrs);
    StepKeepsScores(start, goal, ranking, t, rank, current, rest, nbrs);
  }

  /**
   * One pass of the loop that does not meet the goal: `current` is taken
   * off the open list, leaving `rest`, closed, marked on the grid, and its
   * neighbours, listed on the marked grid, are relaxed.
   */
  lemma SearchStep(g: Grid, start: Coord, goal: Coord, ranking: Ranking, gm: Grid, explored: nat,
                   t: Tables, rank: map<Coord, nat>,
                   current: Coord, rest: seq<Coord>, gm': Grid, explored': nat, nbrs: seq<Coord>, t': Tables)
    requires Elems(t.open) == {current} + Elems(rest) && Distinct(rest) && current !in rest && current != goal
    requires current in t.gScore && Seen(Close(t, current, rest)) == t.gScore.Keys
    requires t' == RelaxAll(Close(t, current, rest), current, nbrs, goal, ranking)
    requires Shaped(g) && Shaped(gm) && Shaped(gm') && InBounds(current)
    requires At(gm, current) != Start && At(gm, current) != Goal ==> gm' == Put(gm, current, Explored) && explored' == explored + 1
    requires At(gm, current) == Start || At(gm, current) == Goal ==> gm' == gm && explored' == explored
    requires nbrs == GetNeighbors(gm', current)
    requires SearchInv(g, start, goal, ranking, gm, explored, t, rank)
    ensures SearchInv(g, start, goal, ranking, gm', explored', t', rank[current := |t.closed|])
    ensures |t'.closed| == |t.closed| + 1
  {
    StepKeepsGridAndOpen(g, start, goal, ranking, gm, explored, t, current, rest, gm', explored', nbrs, t');
    StepKeepsLinksAndScores(g, start, goal, ranking, t, rank, current, rest, nbrs, t');
    StartFirstStep(g, start, goal, ranking, t, current, rest, nbrs, t');
  }

  /**
   * Distances are never negative, and once `start` is closed each of its
   * neighbours keeps `start` as predecessor: its distance 1 can never be
   * strictly beaten.
   */
  ghost predicate StartFirst(g: Grid, start: Coord, t: Tables)
    requires Shaped(g)
  {
    && (forall c :: c in t.gScore ==> t.gScore[c] >= 0)
    && StartLinks(g, start, t.cameFrom, t.closed)
  }

  /**
   * The map reasoning of one pass: every link after relaxing is an old one
   * with its old distance or a new one from `current` one step further; the
   * first pass starts from `start` with no links, later ones from a cell at
   * distance at least 1.
   */
  lemma StartFirstAfterLinks(g: Grid, start: Coord, current: Coord, nbrs: seq<Coord>, closed: set<Coord>,
                             cameFrom: map<Coord, Coord>, gScore: map<Coord, int>,
                             cameFrom': map<Coord, Coord>, gScore': map<Coord, int>)
    requires Shaped(g) && forall n :: Linked(g, current, n) ==> n in nbrs
    requires forall c :: c in gScore ==> gScore[c] >= 0
    requires StartLinks(g, start, cameFrom, closed)
    requires current in gScore
    requires start in closed ==> gScore[current] >= 1
    requires start !in closed ==> current == start && cameFrom == map[] && closed == {}
    requires forall c {:trigger cameFrom[c]} :: c in cameFrom ==>
               c in gScore && cameFrom[c] in gScore && gScore[c] == gScore[cameFrom[c]] + 1
    requires start in gScore && gScore[start] == 0
    requires start in gScore' && gScore'[start] == 0 && cameFrom'.Keys == gScore'.Keys - {start}
    requires gScore.Keys <= gScore'.Keys && forall c :: c in gScore ==> gScore'[c] <= gScore[c]
    requires forall n :: n in nbrs && n !in closed + {current} ==> n in gScore'
    requires forall c {:trigger cameFrom'[c]} :: c in cameFrom' ==>
               (c in cameFrom && cameFrom'[c] == cameFrom[c] && gScore'[c] == gScore[c])
               || (cameFrom'[c] == current && gScore'[c] == gScore[current] + 1)
    ensures forall c :: c in gScore' ==> gScore'[c] >= 0
    ensures StartLinks(g, start, cameFrom', closed + {current})
  {
    forall c | c in gScore'
      ensures gScore'[c] >= 0
    {
      if c != start {
        assert c in cameFrom';
      }
    }
    forall n | Linked(g, start, n)
      ensures n in cameFrom' && cameFrom'[n] == start
    {
      if start in closed {
        assert n in cameFrom && cameFrom[n] == start && gScore[n] == 1;
        assert n in cameFrom';
      } else {
        assert n in nbrs && n != start;
        assert n in cameFrom';
      }
    }
  }

  /**
   * What the loop over the neighbours does to distances and links, as plain
   * map facts: RelaxAllLinks restated so that StepKeepsStartFirst's proof need
   * not unfold RelaxAll, which would make it too costly to verify.
   */
  lemma RelaxAllDistances(t: Tables, current: Coord, nbrs: seq<Coord>, goal: Coord, ranking: Ranking)
    requires current in t.closed && current in t.gScore && t.gScore.Keys == Seen(t)
    requires t.cameFrom.Keys <= t.gScore.Keys
    ensures var r := RelaxAll(t, current, nbrs, goal, ranking);
      && t.gScore.Keys <= r.gScore.Keys
      && (forall c :: c in t.gScore ==> r.gScore[c] <= t.gScore[c])
      && (forall n :: n in nbrs && n !in t.closed ==> n in r.gScore)
      && (forall c :: c in r.cameFrom ==>
            && c in r.gScore
            && ((c in t.cameFrom && r.cameFrom[c] == t.cameFrom[c] && r.gScore[c] == t.gScore[c])
                || (r.cameFrom[c] == current && r.gScore[c] == t.gScore[current] + 1)))
  {
    RelaxAllLinks(t, current, nbrs, goal, ranking);
  }

  /**
   * The first pass closes `start` and links all its neighbours, none of them
   * seen yet; a later pass offers them distance at least 2, never shorter
   * than the 1 they hold.
   */
  lemma StepKeepsStartFirst(g: Grid, start: Coord, goal: Coord, ranking: Ranking, t: Tables,
                            current: Coord, rest: seq<Coord>, nbrs: seq<Coord>, t': Tables)
    requires Elems(t.open) == {current} + Elems(rest) && current !in rest && t.closed !! Elems(t.open)
    requires (t.closed == {} && t.open == [start]) || start in t.closed
    requires current in t.gScore && Seen(Close(t, current, rest)) == t.gScore.Keys
    requires t.cameFrom.Keys == Seen(t) - {start} && start in t.gScore && t.gScore[start] == 0
    requires Shaped(g) && forall n :: n in nbrs <==> Linked(g, current, n)
    requires start in t'.gScore && t'.gScore[start] == 0 && t'.cameFrom.Keys == t'.gScore.Keys - {start}
    requires forall c {:trigger t.cameFrom[c]} :: c in t.cameFrom ==>
               c in t.gScore && t.cameFrom[c] in t.gScore && t.gScore[c] == t.gScore[t.cameFrom[c]] + 1
    requires StartFirst(g, start, t)
    requires t' == RelaxAll(Close(t, current, rest), current, nbrs, goal, ranking)
    ensures StartFirst(g, start, t')
  {
    RelaxAllDistances(Close(t, current, rest), current, nbrs, goal, ranking);
    if start in t.closed {
      assert current != start && current in t.cameFrom;
    } else {
      assert Elems(t.open) == {start};
    }
    StartFirstAfterLinks(g, start, current, nbrs, t.closed, t.cameFrom, t.gScore, t'.cameFrom, t'.gScore);
  }

  /**
   * The same, from the invariants the loop keeps before and after the pass:
   * SearchStep calls this form so that its own proof does not unfold those
   * invariants into StepKeepsStartFirst's many plain requires, which would
   * make it too costly to verify.
   */
  lemma StartFirstStep(g: Grid, start: Coord, goal: Coord, ranking: Ranking, t: Tables,
                       current: Coord, rest: seq<Coord>, nbrs: seq<Coord>, t': Tables)
    requires Elems(t.open) == {current} + Elems(rest) && current !in rest
    requires current in t.gScore && Seen(Close(t, current, rest)) == t.gScore.Keys
    requires Shaped(g) && forall n :: n in nbrs <==> Linked(g, current, n)
    requires OpenInv(g, start, goal, t) && ScoreInv(start, goal, ranking, t) && StartFirst(g, start, t)
    requires LinkInv(g, start, t.cameFrom, Seen(t), t.closed)
    requires ScoreInv(start, goal, ranking, t') && LinkInv(g, start, t'.cameFrom, Seen(t'), t'.closed)
    requires t' == RelaxAll(Close(t, current, rest), current, nbrs, goal, ranking)
    ensures StartFirst(g, start, t')
  {
    StepKeepsStartFirst(g, start, goal, ranking, t, current, rest, nbrs, t');
  }

  /**
   * The distance recorded for a linked cell is the length of its
   * predecessor chain: the number of steps of the path the search found.
   */
  lemma {:induction false} ChainLength(start: Coord, goal: Coord, ranking: Ranking, t: Tables,
                                       rank: map<Coord, nat>, c: Coord)
    requires ScoreInv(start, goal, ranking, t) && Ranked(t.cameFrom, rank) && c in rank
    requires t.cameFrom.Keys == t.gScore.Keys - {start} && c in t.gScore
    ensures t.gScore[c] == |Chain(t.cameFrom, c, rank)|
    decreases rank[c]
  {
    if c in t.cameFrom {
      ChainLength(start, goal, ranking, t, rank, t.cameFrom[c]);
    }
  }

  /**
   * The rest of one pass after `current`, not the goal, is taken off the
   * open list: close it, mark it EXPLORED (counting it) unless it is START
   * or GOAL, and relax its neighbours.
   */
  method Expand(g: Grid, start: Coord, goal: Coord, ranking: Ranking, gm: Grid, explored: nat,
                t: Tables, ghost rank: map<Coord, nat>, current: Coord, rest: seq<Coord>)
    returns (gm': Grid, explored': nat, t': Tables, ghost rank': map<Coord, nat>)
    requires Elems(t.open) == {current} + Elems(rest) && Distinct(rest) && current !in rest && current != goal
    requires Shaped(g) && SearchInv(g, start, goal, ranking, gm, explored, t, rank)
    ensures SearchInv(g, start, goal, ranking, gm', explored', t', rank')
    ensures t'.closed == t.closed + {current} && |t'.closed| == |t.closed| + 1
  {
    CloseKeepsSeen(t, current, rest);
    gm', explored' := gm, explored;
    if At(gm', current) != Start && At(gm', current) != Goal {
      gm' := Put(gm', current, Explored);
      explored' := explored' + 1;
    }
    var nbrs := GetNeighbors(gm', current);
    t' := RelaxAll(Close(t, current, rest), current, nbrs, goal, ranking);
    SearchStep(g, start, goal, ranking, gm, explored, t, rank, current, rest, gm', explored', nbrs, t');
    rank' := rank[current := |t.closed|];
  }

  /**
   * The goal was taken off the open list: reconstructPath walks back from
   * it along the recorded predecessors, and the goal's recorded distance is
   * the number of steps of that walk.
   */
  method ReachGoal(g: Grid, start: Coord, goal: Coord, ranking: Ranking, gm: Grid, explored: nat,
                   t: Tables, ghost rank: map<Coord, nat>)
    returns (g': Grid, path: seq<Coord>, ghost chain: seq<Coord>)
    requires Shaped(g) && goal in Seen(t) && SearchInv(g, start, goal, ranking, gm, explored, t, rank)
    ensures Outcome(g, start, goal, g', path, explored, true, t.closed, chain)
    ensures FollowsLinks(t.cameFrom, goal, chain) && goal in t.gScore && t.gScore[goal] == |chain|
    ensures Linked(g, start, goal) ==> chain == [start]
  {
    GoalFound(g, start, goal, t.cameFrom, Seen(t), t.closed, rank);
    g', path := ReconstructPath(gm, t.cameFrom, goal, rank[goal := |t.closed|]);
    chain := Chain(t.cameFrom, goal, rank[goal := |t.closed|]);
    ChainFollowsLinks(t.cameFrom, rank[goal := |t.closed|], goal);
    ChainLength(start, goal, ranking, t, rank[goal := |t.closed|], goal);
    FinishReached(g, start, goal, gm, explored, t.closed, chain, g', path);
    if Linked(g, start, goal) {
      assert start in t.closed;
      GoalNextToStart(g, start, goal, t.cameFrom, t.closed, rank[goal := |t.closed|]);
    }
  }

  /**
   * The loop shared by dijkstra and astar: sort the open list and take its
   * front; stop with the reconstructed path when it is the goal; otherwise
   * close it, mark it EXPLORED (counting it) unless it is START or GOAL, and
   * relax its neighbours. The loop ends because every pass closes a new cell.
   * The final tables are returned as a ghost: their distances count steps
   * from the start, and on reaching the goal the chain is the walk back
   * along their predecessors, as many steps as the goal's distance.
   */
  method Search(g: Grid, start: Coord, goal: Coord, ranking: Ranking)
    returns (g': Grid, path: seq<Coord>, explored: nat,
             ghost reached: bool, ghost expanded: set<Coord>, ghost chain: seq<Coord>, ghost final: Tables)
    requires Shaped(g) && Walkable(g, start)
    ensures Outcome(g, start, goal, g', path, explored, reached, expanded, chain)
    ensures final.closed == expanded && ScoreInv(start, goal, ranking, final)
    ensures reached ==> FollowsLinks(final.cameFrom, goal, chain) && goal in final.gScore && final.gScore[goal] == |chain|
    ensures reached && Linked(g, start, goal) ==> chain == [start]
  {
    var t := Initial(start, goal, ranking);
    g' := g;
    explored := 0;
    ghost var rank: map<Coord, nat> := map[];
    SearchStarts(g, start, goal, ranking);
    while |t.open| > 0
      invariant SearchInv(g, start, goal, ranking, g', explored, t, rank)
      decreases |AllCoords()| - |t.closed|
    {
      var (current, rest) := PopBest(t.open, t.fScore);
      if current == goal {
        g', path, chain := ReachGoal(g, start, goal, ranking, g', explored, t, rank);
        reached := true;
        expanded := t.closed;
        final := t;
        return;
      }
      g', explored, t, rank := Expand(g, start, goal, ranking, g', explored, t, rank, current, rest);
    }
    path := [];
    reached := false;
    expanded := t.closed;
    chain := [];
    final := t;
    SettledReachable(g, start, t.cameFrom, Seen(t), t.closed, rank);
    FinishExhausted(g, start, goal, g', explored, expanded);
  }

  /** dijkstra: the open list sorted by distance from the start. */
  method Dijkstra(g: Grid, start: Coord, goal: Coord)
    returns (g': Grid, path: seq<Coord>, explored: nat,
             ghost reached: bool, ghost expanded: set<Coord>, ghost chain: seq<Coord>, ghost final: Tables)
    requires Shaped(g) && Walkable(g, start)
    ensures Outcome(g, start, goal, g', path, explored, reached, expanded, chain)
    ensures final.closed == expanded && ScoreInv(start, goal, ByDistance, final)
    ensures reached ==> FollowsLinks(final.cameFrom, goal, chain) && goal in final.gScore && final.gScore[goal] == |chain|
    ensures reached && Linked(g, start, goal) ==> chain == [start]
    ensures Drawn(g, g', path) && explored <= |Passable(g)|
    ensures |path| > 0 ==> Reachable(g, start, goal)
    ensures Linked(g, start, goal) ==> path == SkipStart(g, [start])
  {
    g', path, explored, reached, expanded, chain, final := Search(g, start, goal, ByDistance);
    OutcomeDrawn(g, start, goal, g', path, explored, reached, expanded, chain);
    NextToStartOutcome(g, start, goal, g', path, explored, reached, expanded, chain);
  }

  /** astar: the open list sorted by fScore, distance plus Manhattan distance to the goal. */
  method AStar(g: Grid, start: Coord, goal: Coord)
    returns (g': Grid, path: seq<Coord>, explored: nat,
             ghost reached: bool, ghost expanded: set<Coord>, ghost chain: seq<Coord>, ghost final: Tables)
    requires Shaped(g) && Walkable(g, start)
    ensures Outcome(g, start, goal, g', path, explored, reached, expanded, chain)
    ensures final.closed == expanded && ScoreInv(start, goal, ByEstimate, final)
    ensures reached ==> FollowsLinks(final.cameFrom, goal, chain) && goal in final.gScore && final.gScore[goal] == |chain|
    ensures reached && Linked(g, start, goal) ==> chain == [start]
    ensures Drawn(g, g', path) && explored <= |Passable(g)|
    ensures |path| > 0 ==> Reachable(g, start, goal)
    ensures Linked(g, start, goal) ==> path == SkipStart(g, [start])
  {
    g', path, explored, reached, expanded, chain, final := Search(g, start, goal, ByEstimate);
    OutcomeDrawn(g, start, goal, g', path, explored, reached, expanded, chain);
    NextToStartOutcome(g, start, goal, g', path, explored, reached, expanded, chain);
  }
}

=== FILE: bookkeeping.dfy ===
/**
 * The predecessor bookkeeping all four searches share: cells are ranked in
 * the order they are expanded, every link in `cameFrom` is one neighbour
 * step from an earlier expanded cell, and the step lemmas that keep this
 * true when one more cell is expanded. The searches differ only in how they
 * pick the next cell and which neighbours they link.
 */
module Bookkeeping {
  import opened GridModel
  import opened Neighbors
  import opened Reconstruction
  import opened SearchSpec

  /** Expansion order: cells are ranked in the order they were expanded, and links point to earlier ranks. */
  ghost predicate RankInv(cameFrom: map<Coord, Coord>, expanded: set<Coord>, rank: map<Coord, nat>) {
    && rank.Keys == expanded
    && (forall c :: c in rank ==> rank[c] < |expanded|)
    && Ranked(cameFrom, rank)
  }

  /**
   * Predecessor bookkeeping: every visited cell but `start` has a
   * predecessor, one neighbour step back, and every neighbour of an expanded
   * cell has been visited.
   */
  ghost predicate LinkInv(g: Grid, start: Coord, cameFrom: map<Coord, Coord>, visited: set<Coord>, expanded: set<Coord>)
    requires Shaped(g)
  {
    && cameFrom.Keys == visited - {start}
    && (forall c {:trigger cameFrom[c]} :: c in cameFrom ==> Linked(g, cameFrom[c], c))
    && (forall c, n :: c in expanded && Linked(g, c, n) ==> n in visited)
  }

  /**
   * `start` is expanded first and links all its neighbours, and no later
   * pass relinks them: once `start` is expanded, each of its neighbours has
   * `start` as predecessor.
   */
  ghost predicate StartLinks(g: Grid, start: Coord, cameFrom: map<Coord, Coord>, expanded: set<Coord>)
    requires Shaped(g)
  {
    start in expanded ==> forall n :: Linked(g, start, n) ==> n in cameFrom && cameFrom[n] == start
  }

  /** So a goal next to `start` is reached in one step back: its chain is `start` alone. */
  lemma GoalNextToStart(g: Grid, start: Coord, goal: Coord, cameFrom: map<Coord, Coord>, expanded: set<Coord>,
                        rank: map<Coord, nat>)
    requires Shaped(g) && Ranked(cameFrom, rank) && goal in rank && start !in cameFrom
    requires StartLinks(g, start, cameFrom, expanded) && start in expanded && Linked(g, start, goal)
    ensures Chain(cameFrom, goal, rank) == [start]
  {
    assert cameFrom[goal] == start;
    assert Chain(cameFrom, start, rank) == [];
  }

  /**
   * Every expanded cell is reachable from `start`: its predecessor chain,
   * read backwards, is a walk from `start` to it.
   */
  lemma SettledReachable(g: Grid, start: Coord, cameFrom: map<Coord, Coord>, visited: set<Coord>,
                         expanded: set<Coord>, rank: map<Coord, nat>)
    requires Shaped(g) && RankInv(cameFrom, expanded, rank) && LinkInv(g, start, cameFrom, visited, expanded)
    requires expanded <= visited
    ensures forall c :: c in expanded ==> Reachable(g, start, c)
  {
    forall c | c in expanded
      ensures Reachable(g, start, c)
    {
      ChainIsBackWalk(g, cameFrom, rank, c);
      ChainEndsAtStart(cameFrom, rank, c, start);
      var w := [c] + Chain(cameFrom, c, rank);
      BackWalkReversed(g, w);
      var r := Reverse(w);
      assert r[0] == start && r[|r| - 1] == c;
    }
  }

  /** Ranking one more cell, last: the ranks stay below the number of ranked cells. */
  lemma RankGrows(rank: map<Coord, nat>, rank': map<Coord, nat>, expanded: set<Coord>, current: Coord)
    requires rank.Keys == expanded && current !in expanded
    requires forall c :: c in rank ==> rank[c] < |expanded|
    requires rank' == rank[current := |expanded|]
    ensures rank'.Keys == expanded + {current}
    ensures forall c :: c in rank' ==> rank'[c] < |expanded + {current}|
  {
    assert |expanded + {current}| == |expanded| + 1;
  }

  /**
   * New links all point to the newly ranked `current` from cells not ranked
   * yet, so every link still points to a cell ranked earlier.
   */
  lemma RankedGrows(cameFrom: map<Coord, Coord>, cameFrom': map<Coord, Coord>, rank: map<Coord, nat>,
                    current: Coord, n: nat)
    requires Ranked(cameFrom, rank) && current !in rank
    requires forall c :: c in rank ==> rank[c] < n
    requires forall c {:trigger cameFrom'[c]} :: c in cameFrom' ==>
               (c in cameFrom && cameFrom'[c] == cameFrom[c]) || (cameFrom'[c] == current && c !in rank && c != current)
    ensures Ranked(cameFrom', rank[current := n])
  {
    var rank' := rank[current := n];
    forall c | c in cameFrom'
      ensures cameFrom'[c] in rank' && (c in rank' ==> rank'[cameFrom'[c]] < rank'[c])
    {
      if c in cameFrom && cameFrom'[c] == cameFrom[c] {
        assert cameFrom[c] in rank;
      }
    }
  }

  /** New links start at `current` and reach one of its neighbours. */
  lemma LinksGrow(g: Grid, cameFrom: map<Coord, Coord>, cameFrom': map<Coord, Coord>, current: Coord, nbrs: seq<Coord>)
    requires Shaped(g)
    requires forall c {:trigger cameFrom[c]} :: c in cameFrom ==> Linked(g, cameFrom[c], c)
    requires forall n :: n in nbrs ==> Linked(g, current, n)
    requires forall c {:trigger cameFrom'[c]} :: c in cameFrom' ==>
               (c in cameFrom && cameFrom'[c] == cameFrom[c]) || (c in nbrs && cameFrom'[c] == current)
    ensures forall c {:trigger cameFrom'[c]} :: c in cameFrom' ==> Linked(g, cameFrom'[c], c)
  {
    forall c | c in cameFrom'
      ensures Linked(g, cameFrom'[c], c)
    {
      if c in cameFrom && cameFrom'[c] == cameFrom[c] {
        assert Linked(g, cameFrom[c], c);
      }
    }
  }

  /** Once all of `current`'s neighbours are visited, the expanded cells stay closed into the visited ones. */
  lemma ClosureGrows(g: Grid, expanded: set<Coord>, visited: set<Coord>, visited': set<Coord>,
                     current: Coord, nbrs: seq<Coord>)
    requires Shaped(g)
    requires forall c, n :: c in expanded && Linked(g, c, n) ==> n in visited
    requires visited <= visited'
    requires forall n :: Linked(g, current, n) ==> n in nbrs
    requires forall n :: n in nbrs ==> n in visited'
    ensures forall c, n :: c in expanded + {current} && Linked(g, c, n) ==> n in visited'
  {
  }

  /** Ranking the goal after every expanded cell keeps links pointing to earlier ranks. */
  lemma GoalRanked(cameFrom: map<Coord, Coord>, expanded: set<Coord>, rank: map<Coord, nat>, goal: Coord)
    requires RankInv(cameFrom, expanded, rank) && goal !in expanded
    ensures Ranked(cameFrom, rank[goal := |expanded|])
    ensures rank[goal := |expanded|].Keys == expanded + {goal}
  {
    var rank' := rank[goal := |expanded|];
    forall c | c in cameFrom
      ensures cameFrom[c] in rank' && (c in rank' ==> rank'[cameFrom[c]] < rank'[c])
    {
      assert cameFrom[c] in rank;
    }
  }

  /**
   * The walk back from the goal: well formed, through expanded cells only,
   * and ending at `start`, the one visited cell without a predecessor.
   */
  lemma GoalChain(g: Grid, start: Coord, goal: Coord, cameFrom: map<Coord, Coord>, expanded: set<Coord>,
                  rank: map<Coord, nat>)
    requires Shaped(g) && Ranked(cameFrom, rank) && rank.Keys == expanded + {goal} && goal !in expanded
    requires start !in cameFrom && rank.Keys <= cameFrom.Keys + {start}
    requires forall c {:trigger cameFrom[c]} :: c in cameFrom ==> Linked(g, cameFrom[c], c)
    ensures ChainFacts(g, start, goal, expanded, Chain(cameFrom, goal, rank))
  {
    ChainRanksFall(cameFrom, rank, goal);
    ChainEndsAtStart(cameFrom, rank, goal, start);
    ChainIsBackWalk(g, cameFrom, rank, goal);
    ChainDistinct(cameFrom, rank, goal);
    var ch := Chain(cameFrom, goal, rank);
    forall i | 0 <= i < |ch|
      ensures ch[i] in expanded
    {
      assert rank[ch[i]] < rank[goal];
    }
  }

  /** Taking the goal off the frontier: reconstructPath may walk back from it. */
  lemma GoalFound(g: Grid, start: Coord, goal: Coord, cameFrom: map<Coord, Coord>, visited: set<Coord>,
                  expanded: set<Coord>, rank: map<Coord, nat>)
    requires Shaped(g) && RankInv(cameFrom, expanded, rank) && LinkInv(g, start, cameFrom, visited, expanded)
    requires forall c :: c in visited ==> Walkable(g, c)
    requires expanded <= visited && start in visited && goal in visited && goal !in expanded
    ensures Ranked(cameFrom, rank[goal := |expanded|])
    ensures forall c :: c in cameFrom ==> InBounds(cameFrom[c])
    ensures ChainFacts(g, start, goal, expanded, Chain(cameFrom, goal, rank[goal := |expanded|]))
    ensures forall c :: c in expanded ==> Reachable(g, start, c)
  {
    SettledReachable(g, start, cameFrom, visited, expanded, rank);
    GoalRanked(cameFrom, expanded, rank, goal);
    GoalChain(g, start, goal, cameFrom, expanded, rank[goal := |expanded|]);
    forall c | c in cameFrom
      ensures InBounds(cameFrom[c])
    {
      assert cameFrom[c] in rank;
    }
  }

  /** The goal was taken off the frontier and the path drawn on the marked grid. */
  lemma FinishReached(g: Grid, start: Coord, goal: Coord, gm: Grid, explored: nat, expanded: set<Coord>,
                      chain: seq<Coord>, g': Grid, path: seq<Coord>)
    requires Shaped(g) && Marked(g, gm, expanded, explored) && forall c :: c in expanded ==> Walkable(g, c)
    requires goal !in expanded && (start != goal ==> start in expanded)
    requires forall c :: c in expanded ==> Reachable(g, start, c)
    requires ChainFacts(g, start, goal, expanded, chain)
    requires Shaped(g') && path == SkipStart(gm, chain)
    requires forall c :: InBounds(c) ==> At(g', c) == if c in path then Path else At(gm, c)
    ensures Outcome(g, start, goal, g', path, explored, true, expanded, chain)
  {
    MarkedKeepsLayout(g, gm, expanded, explored);
    SkipStartFollowsStartCells(g, gm, chain);
  }

  /** The frontier ran dry: every neighbour of an expanded cell was expanded. */
  lemma FinishExhausted(g: Grid, start: Coord, goal: Coord, gm: Grid, explored: nat, expanded: set<Coord>)
    requires Shaped(g) && Marked(g, gm, expanded, explored) && forall c :: c in expanded ==> Walkable(g, c)
    requires start in expanded && goal !in expanded
    requires forall c :: c in expanded ==> Reachable(g, start, c)
    requires forall c, n :: c in expanded && Linked(g, c, n) ==> n in expanded
    ensures Outcome(g, start, goal, gm, [], explored, false, expanded, [])
  {
  }
}

=== FILE: editing.dfy ===
/**
 * The page state the engine works on (grid, startPos, goalPos, currentMode)
 * and the edits made to it: initialisation, the three edit branches of a
 * canvas click, clearing the search marks and clearing the whole grid.
 */
module Editing {
  import opened Wrappers
  import opened GridModel

  /** currentMode: MODE_NONE, MODE_SET_START, MODE_SET_GOAL, MODE_TOGGLE_OBSTACLES. */
  datatype Mode = NoMode | SetStartMode | SetGoalMode | ToggleMode

  /** The shared page state; `start` and `goal` are `None` while the source holds `null`. */
  datatype Board = Board(grid: Grid, start: Option<Coord>, goal: Option<Coord>, mode: Mode)

  /** Every stored position can be used to index the grid. */
  predicate WellFormed(b: Board) {
    && Shaped(b.grid)
    && (b.start.Some? ==> InBounds(b.start.value))
    && (b.goal.Some? ==> InBounds(b.goal.value))
  }

  /** START is drawn exactly at startPos and GOAL exactly at goalPos. */
  ghost predicate Valid(b: Board) {
    && WellFormed(b)
    && (b.start.Some? ==> At(b.grid, b.start.value) == Start)
    && (b.goal.Some? ==> At(b.grid, b.goal.value) == Goal)
    && (forall c :: InBounds(c) && At(b.grid, c) == Start ==> b.start == Some(c))
    && (forall c :: InBounds(c) && At(b.grid, c) == Goal ==> b.goal == Some(c))
  }

  /** On a valid board the start and the goal never share a cell. */
  lemma ValidSeparatesEndpoints(b: Board)
    requires Valid(b) && b.start.Some? && b.goal.Some?
    ensures b.start.value != b.goal.value
  {
  }

  const InitialStart: Coord := Coord(2, 2)
  const InitialGoal: Coord := Coord(17, 17)

  /** initializeGrid: an all-empty grid with START at (2,2) and GOAL at (17,17). */
  function InitializeGrid(b: Board): (r: Board)
    ensures Valid(r)
    ensures r.start == Some(InitialStart) && r.goal == Some(InitialGoal) && r.mode == b.mode
    ensures forall c :: InBounds(c) && c != InitialStart && c != InitialGoal ==> At(r.grid, c) == Empty
  {
    var blank := Tabulate(_ => Empty);
    Board(Put(Put(blank, InitialStart, Start), InitialGoal, Goal), Some(InitialStart), Some(InitialGoal), b.mode)
  }

  /**
   * The MODE_SET_START branch: refused on the GOAL cell; otherwise the old
   * start cell is emptied, `c` becomes START whatever it held before, and
   * the mode falls back to MODE_NONE.
   */
  function PlaceStart(b: Board, c: Coord): (r: Board)
    requires WellFormed(b) && InBounds(c)
    ensures WellFormed(r)
    ensures At(b.grid, c) == Goal ==> r == b
    ensures At(b.grid, c) != Goal ==>
      && r.start == Some(c) && r.goal == b.goal && r.mode == NoMode
      && At(r.grid, c) == Start
      && (b.start.Some? && b.start.value != c ==> At(r.grid, b.start.value) == Empty)
      && forall d :: InBounds(d) && d != c && b.start != Some(d) ==> At(r.grid, d) == At(b.grid, d)
  {
    if At(b.grid, c) == Goal then b
    else
      var cleared := if b.start.Some? then Put(b.grid, b.start.value, Empty) else b.grid;
      Board(Put(cleared, c, Start), Some(c), b.goal, NoMode)
  }

  /** The MODE_SET_GOAL branch, the mirror image of PlaceStart. */
  function PlaceGoal(b: Board, c: Coord): (r: Board)
    requires WellFormed(b) && InBounds(c)
    ensures WellFormed(r)
    ensures At(b.grid, c) == Start ==> r == b
    ensures At(b.grid, c) != Start ==>
      && r.goal == Some(c) && r.start == b.start && r.mode == NoMode
      && At(r.grid, c) == Goal
      && (b.goal.Some? && b.goal.value != c ==> At(r.grid, b.goal.value) == Empty)
      && forall d :: InBounds(d) && d != c && b.goal != Some(d) ==> At(r.grid, d) == At(b.grid, d)
  {
    if At(b.grid, c) == Start then b
    else
      var cleared := if b.goal.Some? then Put(b.grid, b.goal.value, Empty) else b.grid;
      Board(Put(cleared, c, Goal), b.start, Some(c), NoMode)
  }

  /** The MODE_TOGGLE_OBSTACLES branch: EMPTY and OBSTACLE swap, every other code stays. */
  function ToggleObstacle(b: Board, c: Coord): (r: Board)
    requires WellFormed(b) && InBounds(c)
    ensures WellFormed(r)
    ensures r.start == b.start && r.goal == b.goal && r.mode == b.mode
    ensures At(b.grid, c) == Empty ==> At(r.grid, c) == Obstacle
    ensures At(b.grid, c) == Obstacle ==> At(r.grid, c) == Empty
    ensures At(b.grid, c) != Empty && At(b.grid, c) != Obstacle ==> r == b
    ensures forall d :: InBounds(d) && d != c ==> At(r.grid, d) == At(b.grid, d)
  {
    if At(b.grid, c) == Obstacle then b.(grid := Put(b.grid, c, Empty))
    else if At(b.grid, c) == Empty then b.(grid := Put(b.grid, c, Obstacle))
    else b
  }

  /** Toggling the same cell twice gives back the board. */
  lemma ToggleTwiceIsIdentity(b: Board, c: Coord)
    requires WellFormed(b) && InBounds(c)
    ensures ToggleObstacle(ToggleObstacle(b, c), c) == b
  {
    var r := ToggleObstacle(ToggleObstacle(b, c), c);
    Extensionality(r.grid, b.grid);
  }

  /**
   * handleCanvasClick once the mouse position is mapped to cell (x, y): positions
   * outside the grid are ignored, then the current mode picks the edit.
   */
  function Click(b: Board, x: int, y: int): (r: Board)
    requires WellFormed(b)
    ensures WellFormed(r)
    ensures !InBounds(Coord(x, y)) || b.mode == NoMode ==> r == b
    ensures r.start != b.start ==> b.mode == SetStartMode && r.start == Some(Coord(x, y))
    ensures r.goal != b.goal ==> b.mode == SetGoalMode && r.goal == Some(Coord(x, y))
    ensures InBounds(Coord(x, y)) && b.mode == SetStartMode ==> r == PlaceStart(b, Coord(x, y))
    ensures InBounds(Coord(x, y)) && b.mode == SetGoalMode ==> r == PlaceGoal(b, Coord(x, y))
    ensures InBounds(Coord(x, y)) && b.mode == ToggleMode ==> r == ToggleObstacle(b, Coord(x, y))
    ensures forall d :: InBounds(d) && d != Coord(x, y) && Some(d) != b.start && Some(d) != b.goal
              ==> At(r.grid, d) == At(b.grid, d)
  {
    var c := Coord(x, y);
    if !InBounds(c) then b
    else match b.mode
      case SetStartMode => PlaceStart(b, c)
      case SetGoalMode => PlaceGoal(b, c)
      case ToggleMode => ToggleObstacle(b, c)
      case NoMode => b
  }

  /** Every edit a click can make keeps START at startPos and GOAL at goalPos. */
  lemma ClickPreservesValid(b: Board, x: int, y: int)
    requires Valid(b)
    ensures Valid(Click(b, x, y))
  {
    var c := Coord(x, y);
    if InBounds(c) {
      match b.mode
      case SetStartMode =>
        var r := PlaceStart(b, c);
        if At(b.grid, c) != Goal {
          forall d | InBounds(d) && At(r.grid, d) == Start
            ensures r.start == Some(d)
          {
          }
        }
      case SetGoalMode =>
        var r := PlaceGoal(b, c);
        if At(b.grid, c) != Start {
          forall d | InBounds(d) && At(r.grid, d) == Goal
            ensures r.goal == Some(d)
          {
          }
        }
      case ToggleMode =>
      case NoMode =>
    }
  }

  /** A PATH or EXPLORED mark reverts to EMPTY; every other code is kept. */
  function Unmark(v: Cell): Cell {
    if v == Path || v == Explored then Empty else v
  }

  /** clearPath: every PATH or EXPLORED cell becomes EMPTY, every other cell is left alone. */
  function ClearPath(b: Board): (r: Board)
    requires WellFormed(b)
    ensures WellFormed(r)
    ensures r.start == b.start && r.goal == b.goal && r.mode == b.mode
    ensures forall c :: InBounds(c) ==> At(r.grid, c) != Path && At(r.grid, c) != Explored
    ensures forall c :: InBounds(c) && At(b.grid, c) != Path && At(b.grid, c) != Explored
              ==> At(r.grid, c) == At(b.grid, c)
    ensures forall c :: InBounds(c) && (At(b.grid, c) == Path || At(b.grid, c) == Explored)
              ==> At(r.grid, c) == Empty
  {
    var g := b.grid;
    b.(grid := Tabulate(c => if InBounds(c) then Unmark(At(g, c)) else Empty))
  }

  /** Clearing the search marks twice is the same as clearing them once. */
  lemma ClearPathIdempotent(b: Board)
    requires WellFormed(b)
    ensures ClearPath(ClearPath(b)) == ClearPath(b)
  {
    var once := ClearPath(b);
    var twice := ClearPath(once);
    Extensionality(twice.grid, once.grid);
  }

  /** Clearing the search marks moves no obstacle and keeps the board invariant. */
  lemma ClearPathKeepsLayout(b: Board)
    requires WellFormed(b)
    ensures SameObstacles(b.grid, ClearPath(b).grid)
    ensures Valid(b) ==> Valid(ClearPath(b))
  {
  }

  /**
   * clearGrid: every cell becomes EMPTY, then START is stamped at startPos and
   * GOAL at goalPos when they are set (GOAL last, so it wins a shared cell).
   */
  function ClearGrid(b: Board): (r: Board)
    requires WellFormed(b)
    ensures WellFormed(r)
    ensures r.start == b.start && r.goal == b.goal && r.mode == b.mode
    ensures forall c :: InBounds(c) && b.start != Some(c) && b.goal != Some(c) ==> At(r.grid, c) == Empty
    ensures b.goal.Some? ==> At(r.grid, b.goal.value) == Goal
    ensures b.start.Some? && b.start != b.goal ==> At(r.grid, b.start.value) == Start
  {
    var blank := Tabulate(_ => Empty);
    var withStart := if b.start.Some? then Put(blank, b.start.value, Start) else blank;
    var withGoal := if b.goal.Some? then Put(withStart, b.goal.value, Goal) else withStart;
    b.(grid := withGoal)
  }

  /** Clearing a valid board leaves a valid board holding nothing but START and GOAL. */
  lemma ClearGridKeepsValid(b: Board)
    requires Valid(b)
    ensures Valid(ClearGrid(b))
  {
    if b.start.Some? && b.goal.Some? {
      ValidSeparatesEndpoints(b);
    }
  }
}

=== FILE: grid.dfy ===
/**
 * The grid of the interactive demo: cell codes, coordinates, the 20×20
 * `grid[y][x]` array and the sets of positions the searches range over.
 */
module GridModel {

  /** The cell codes CELL_EMPTY .. CELL_EXPLORED. */
  datatype Cell = Empty | Obstacle | Start | Goal | Path | Explored

  /** A grid position: column `x`, row `y`. Stands for the `"x,y"` string keys. */
  datatype Coord = Coord(x: int, y: int)

  /** GRID_SIZE: the grid is always square with this side. */
  const Size: int := 20

  /** Rows of cells, indexed `g[y][x]`. */
  type Grid = seq<seq<Cell>>

  predicate Shaped(g: Grid) {
    |g| == Size && forall y :: 0 <= y < Size ==> |g[y]| == Size
  }

  predicate InBounds(c: Coord) {
    0 <= c.x < Size && 0 <= c.y < Size
  }

  function At(g: Grid, c: Coord): Cell
    requires Shaped(g) && InBounds(c)
  {
    g[c.y][c.x]
  }

  /** The assignment `grid[c.y][c.x] = v`. */
  function Put(g: Grid, c: Coord, v: Cell): (r: Grid)
    requires Shaped(g) && InBounds(c)
    ensures Shaped(r)
    ensures At(r, c) == v
    ensures forall d :: InBounds(d) && d != c ==> At(r, d) == At(g, d)
  {
    g[c.y := g[c.y][c.x := v]]
  }

  /** The grid whose cell at every position `c` is `f(c)`. */
  function Tabulate(f: Coord -> Cell): (r: Grid)
    ensures Shaped(r)
    ensures forall c :: InBounds(c) ==> At(r, c) == f(c)
  {
    seq(Size, y => seq(Size, x => f(Coord(x, y))))
  }

  /** Two grids that agree at every position are the same grid. */
  lemma Extensionality(a: Grid, b: Grid)
    requires Shaped(a) && Shaped(b)
    requires forall c :: InBounds(c) ==> At(a, c) == At(b, c)
    ensures a == b
  {
    forall y | 0 <= y < Size
      ensures a[y] == b[y]
    {
      forall x | 0 <= x < Size
        ensures a[y][x] == b[y][x]
      {
        assert At(a, Coord(x, y)) == At(b, Coord(x, y));
      }
    }
  }

  /** Every position of the grid. */
  function AllCoords(): (s: set<Coord>)
    ensures forall c :: c in s <==> InBounds(c)
  {
    var s := set x: int, y: int | 0 <= x < Size && 0 <= y < Size :: Coord(x, y);
    assert forall c :: InBounds(c) ==> c == Coord(c.x, c.y);
    s
  }

  /** The cell at `c` exists and holds `v`. */
  predicate Labelled(g: Grid, c: Coord, v: Cell)
    requires Shaped(g)
  {
    InBounds(c) && At(g, c) == v
  }

  /** A position a search may step onto: inside the grid and not an obstacle. */
  predicate Walkable(g: Grid, c: Coord)
    requires Shaped(g)
  {
    InBounds(c) && At(g, c) != Obstacle
  }

  /** The non-obstacle cells of the grid. */
  function Passable(g: Grid): (s: set<Coord>)
    requires Shaped(g)
    ensures forall c :: c in s <==> Walkable(g, c)
  {
    set c | c in AllCoords() && At(g, c) != Obstacle
  }

  /** Two grids with obstacles at exactly the same positions. */
  ghost predicate SameObstacles(a: Grid, b: Grid)
    requires Shaped(a) && Shaped(b)
  {
    forall c :: InBounds(c) ==> (At(a, c) == Obstacle <==> At(b, c) == Obstacle)
  }

  /** No position occurs twice. */
  predicate Distinct(s: seq<Coord>) {
    forall i, j :: 0 <= i < j < |s| ==> s[i] != s[j]
  }

  /** The positions a list holds. */
  function Elems(s: seq<Coord>): (r: set<Coord>)
    ensures forall c :: c in r <==> c in s
  {
    set c | c in s
  }

  /** A list without repeats holds each position at most once. */
  lemma {:induction false} DistinctCounts(s: seq<Coord>, x: Coord)
    requires Distinct(s)
    ensures multiset(s)[x] <= 1
    decreases |s|
  {
    if s != [] {
      assert s == [s[0]] + s[1..];
      assert Distinct(s[1..]) by {
        forall i, j | 0 <= i < j < |s[1..]|
          ensures s[1..][i] != s[1..][j]
        {
          assert s[1..][i] == s[i + 1] && s[1..][j] == s[j + 1];
        }
      }
      DistinctCounts(s[1..], x);
      if x == s[0] {
        assert x !in s[1..];
      }
    }
  }

  /** Reordering a list without repeats leaves it without repeats. */
  lemma PermutationKeepsDistinct(a: seq<Coord>, b: seq<Coord>)
    requires Distinct(a) && multiset(a) == multiset(b)
    ensures Distinct(b)
  {
    forall i, j | 0 <= i < j < |b|
      ensures b[i] != b[j]
    {
      if b[i] == b[j] {
        assert b == b[..j] + b[j..];
        assert b[i] in b[..j] && b[j] in b[j..] by {
          assert b[..j][i] == b[i];
          assert b[j..][0] == b[j];
        }
        assert multiset(b)[b[i]] == multiset(b[..j])[b[i]] + multiset(b[j..])[b[i]];
        DistinctCounts(a, b[i]);
        assert false;
      }
    }
  }

  /** A list's positions are its head and the positions of its tail. */
  lemma ElemsCons(s: seq<Coord>)
    requires |s| > 0
    ensures Elems(s) == {s[0]} + Elems(s[1..])
  {
    assert forall c :: c in s <==> c == s[0] || c in s[1..];
  }

  /**
   * The entries of `s` a loop pushes when it skips every cell in `seen` and
   * adds each pushed cell to `seen`: the unseen entries, in their order,
   * each at its first occurrence.
   */
  function Fresh(s: seq<Coord>, seen: set<Coord>): (r: seq<Coord>)
    ensures Elems(r) == Elems(s) - seen
    decreases |s|
  {
    if s == [] then []
    else
      ElemsCons(s);
      var rest := Fresh(s[1..], if s[0] in seen then seen else seen + {s[0]});
      if s[0] in seen then rest
      else
        ElemsCons([s[0]] + rest);
        assert ([s[0]] + rest)[1..] == rest;
        [s[0]] + rest
  }

  /** Fresh pushes each cell at most once, and never one already seen. */
  lemma {:induction false} FreshIsDistinct(s: seq<Coord>, seen: set<Coord>)
    ensures Distinct(Fresh(s, seen))
    ensures forall i :: 0 <= i < |Fresh(s, seen)| ==> Fresh(s, seen)[i] !in seen
    decreases |s|
  {
    if s != [] {
      var seen' := if s[0] in seen then seen else seen + {s[0]};
      FreshIsDistinct(s[1..], seen');
      var rest := Fresh(s[1..], seen');
      if s[0] !in seen {
        var r := [s[0]] + rest;
        assert r[1..] == rest;
        forall i, j | 0 <= i < j < |r| ensures r[i] != r[j] {
          if i == 0 {
            assert r[j] == rest[j - 1] && rest[j - 1] !in seen';
          }
        }
      }
    }
  }

  lemma {:induction false} SubsetCardinality(a: set<Coord>, b: set<Coord>)
    requires a <= b
    ensures |a| <= |b|
    decreases a
  {
    if a != {} {
      var x :| x in a;
      SubsetCardinality(a - {x}, b - {x});
    }
  }
}

=== FILE: neighbors.dfy ===
/**
 * Neighbour generation (getNeighbors), the Manhattan heuristic, and the
 * walks over the 4-connected grid that the searches explore.
 */
module Neighbors {
  import opened GridModel

  /** The four steps tried by getNeighbors, in the order N, E, S, W. */
  const Directions: seq<Coord> := [Coord(0, -1), Coord(1, 0), Coord(0, 1), Coord(-1, 0)]

  function Step(p: Coord, d: Coord): Coord {
    Coord(p.x + d.x, p.y + d.y)
  }

  /** `a` and `b` are one horizontal or vertical step apart. */
  predicate Adjacent(a: Coord, b: Coord) {
    || (a.x == b.x && (b.y == a.y - 1 || b.y == a.y + 1))
    || (a.y == b.y && (b.x == a.x - 1 || b.x == a.x + 1))
  }

  /** One search step from `a` may go to `b`: `b` is walkable and one step away. */
  predicate Linked(g: Grid, a: Coord, b: Coord)
    requires Shaped(g)
  {
    Walkable(g, b) && Adjacent(a, b)
  }

  /** Where `n` lies as seen from `p`: 0 north, 1 east, 2 south, 3 west, 4 not a neighbour. */
  function Heading(p: Coord, n: Coord): (h: nat)
    ensures h < 4 <==> Adjacent(p, n)
  {
    if n == Coord(p.x, p.y - 1) then 0
    else if n == Coord(p.x + 1, p.y) then 1
    else if n == Coord(p.x, p.y + 1) then 2
    else if n == Coord(p.x - 1, p.y) then 3
    else 4
  }

  /** The cell one step from `p` in direction `k` of the N, E, S, W list. */
  function Towards(p: Coord, k: nat): (n: Coord)
    requires k < 4
    ensures Heading(p, n) == k
  {
    Step(p, Directions[k])
  }

  /** The directions from index `k` on, kept when they land on a walkable cell. */
  function ScanFrom(g: Grid, p: Coord, k: nat): (r: seq<Coord>)
    requires Shaped(g) && k <= 4
    ensures |r| <= 4 - k
    ensures forall n :: n in r <==> Walkable(g, n) && k <= Heading(p, n) < 4
    ensures forall i, j :: 0 <= i < j < |r| ==> Heading(p, r[i]) < Heading(p, r[j])
    decreases 4 - k
  {
    if k == 4 then []
    else
      var n := Towards(p, k);
      var rest := ScanFrom(g, p, k + 1);
      assert forall m :: k <= Heading(p, m) < 4 ==> m == n || k + 1 <= Heading(p, m);
      if Walkable(g, n) then [n] + rest else rest
  }

  /**
   * getNeighbors: the in-bounds, non-obstacle cells one step from `p`,
   * exactly those, each once, in N, E, S, W order.
   */
  function GetNeighbors(g: Grid, p: Coord): (r: seq<Coord>)
    requires Shaped(g)
    ensures |r| <= 4
    ensures forall n :: n in r <==> Linked(g, p, n)
    ensures forall i, j :: 0 <= i < j < |r| ==> Heading(p, r[i]) < Heading(p, r[j])
  {
    ScanFrom(g, p, 0)
  }

  /** Neighbour lists see only obstacles, so search marks never change them. */
  lemma NeighborsFollowObstacles(a: Grid, b: Grid, p: Coord)
    requires Shaped(a) && Shaped(b) && SameObstacles(a, b)
    ensures GetNeighbors(a, p) == GetNeighbors(b, p)
  {
    var k := 4;
    while k > 0
      invariant 0 <= k <= 4
      invariant ScanFrom(a, p, k) == ScanFrom(b, p, k)
    {
      k := k - 1;
    }
  }

  function Abs(v: int): nat {
    if v < 0 then -v else v
  }

  /** heuristic: the Manhattan distance; zero exactly on equal positions. */
  function Heuristic(a: Coord, b: Coord): (r: nat)
    ensures r == 0 <==> a == b
  {
    Abs(a.x - b.x) + Abs(a.y - b.y)
  }

  lemma HeuristicSymmetric(a: Coord, b: Coord)
    ensures Heuristic(a, b) == Heuristic(b, a)
  {
  }

  /** One grid step is exactly Manhattan distance 1. */
  lemma AdjacentIsUnitDistance(a: Coord, b: Coord)
    ensures Adjacent(a, b) <==> Heuristic(a, b) == 1
  {
  }

  /** Moving one step changes the estimate to any target by at most the step cost 1. */
  lemma HeuristicConsistent(a: Coord, b: Coord, target: Coord)
    requires Adjacent(a, b)
    ensures Heuristic(a, target) <= Heuristic(b, target) + 1
    ensures Heuristic(b, target) <= Heuristic(a, target) + 1
  {
  }

  /** Each entry of `w` after the first is a neighbour of the entry before it. */
  ghost predicate IsWalk(g: Grid, w: seq<Coord>)
    requires Shaped(g)
  {
    forall i :: 0 <= i < |w| - 1 ==> Linked(g, w[i], w[i + 1])
  }

  /** Some walk leads from `a` to `b`. */
  ghost predicate Reachable(g: Grid, a: Coord, b: Coord)
    requires Shaped(g)
  {
    exists w :: IsWalk(g, w) && |w| > 0 && w[0] == a && w[|w| - 1] == b
  }

  /** The heuristic never overestimates: a walk of k steps joins cells at distance at most k. */
  lemma {:induction false} HeuristicAdmissible(g: Grid, w: seq<Coord>)
    requires Shaped(g) && IsWalk(g, w) && |w| > 0
    ensures Heuristic(w[0], w[|w| - 1]) <= |w| - 1
    decreases |w|
  {
    if |w| > 1 {
      var rest := w[1..];
      assert IsWalk(g, rest) by {
        forall i | 0 <= i < |rest| - 1
          ensures Linked(g, rest[i], rest[i + 1])
        {
          assert rest[i] == w[i + 1] && rest[i + 1] == w[i + 2];
          assert Linked(g, w[i + 1], w[i + 2]);
        }
      }
      HeuristicAdmissible(g, rest);
      assert Linked(g, w[0], w[1]);
      HeuristicSymmetric(w[0], w[|w| - 1]);
      HeuristicSymmetric(w[1], w[|w| - 1]);
      HeuristicConsistent(w[0], w[1], w[|w| - 1]);
    }
  }

  /** Every neighbour of a member of `s` is again a member of `s`. */
  ghost predicate NeighbourClosed(g: Grid, s: set<Coord>)
    requires Shaped(g)
  {
    forall c, n :: c in s && Linked(g, c, n) ==> n in s
  }

  /** A walk that begins inside a neighbour-closed set never leaves it. */
  lemma {:induction false} WalkStaysInClosedSet(g: Grid, s: set<Coord>, w: seq<Coord>)
    requires Shaped(g) && NeighbourClosed(g, s) && IsWalk(g, w) && |w| > 0 && w[0] in s
    ensures forall i :: 0 <= i < |w| ==> w[i] in s
  {
    var k := 0;
    while k < |w| - 1
      invariant 0 <= k <= |w| - 1
      invariant forall i :: 0 <= i <= k ==> w[i] in s
    {
      assert Linked(g, w[k], w[k + 1]);
      k := k + 1;
    }
  }

  /** So a neighbour-closed set holding `a` but not `b` shows that `b` cannot be reached from `a`. */
  lemma ClosedSetSeparates(g: Grid, s: set<Coord>, a: Coord, b: Coord)
    requires Shaped(g) && NeighbourClosed(g, s) && a in s && b !in s
    ensures !Reachable(g, a, b)
  {
    if Reachable(g, a, b) {
      var w :| IsWalk(g, w) && |w| > 0 && w[0] == a && w[|w| - 1] == b;
      WalkStaysInClosedSet(g, s, w);
      assert false;
    }
  }

  /** Reachability sees only obstacles. */
  lemma ReachableFollowsObstacles(a: Grid, b: Grid, p: Coord, q: Coord)
    requires Shaped(a) && Shaped(b) && SameObstacles(a, b)
    ensures Reachable(a, p, q) <==> Reachable(b, p, q)
  {
    assert forall c, n :: Linked(a, c, n) <==> Linked(b, c, n);
    assert forall w :: IsWalk(a, w) <==> IsWalk(b, w);
  }

  /** The grid positions some walk from `a` leads to. */
  ghost function ReachableFrom(g: Grid, a: Coord): set<Coord>
    requires Shaped(g)
  {
    set c | c in AllCoords() && Reachable(g, a, c)
  }

  /** So the cells reachable from a position depend only on where the obstacles are. */
  lemma ReachableFromFollowsObstacles(a: Grid, b: Grid, p: Coord)
    requires Shaped(a) && Shaped(b) && SameObstacles(a, b)
    ensures ReachableFrom(a, p) == ReachableFrom(b, p)
  {
    forall q
      ensures Reachable(a, p, q) <==> Reachable(b, p, q)
    {
      ReachableFollowsObstacles(a, b, p, q);
    }
  }
}

=== FILE: reconstruct.dfy ===
/**
 * reconstructPath: the walk back along `cameFrom` from the cell just taken
 * off the frontier, marking each predecessor that is not START as PATH.
 */
module Reconstruction {
  import opened GridModel
  import opened Neighbors

  /**
   * `rank` numbers cells in the order the search took them off the frontier;
   * every recorded predecessor was taken off before the cell it leads to.
   * This is what makes the walk back along `cameFrom` end.
   */
  ghost predicate Ranked(cameFrom: map<Coord, Coord>, rank: map<Coord, nat>) {
    forall c {:trigger cameFrom[c]} :: c in cameFrom ==> cameFrom[c] in rank && (c in rank ==> rank[cameFrom[c]] < rank[c])
  }

  /** The predecessors of `c`, nearest first, up to the first cell that has none. */
  ghost function Chain(cameFrom: map<Coord, Coord>, c: Coord, rank: map<Coord, nat>): seq<Coord>
    requires Ranked(cameFrom, rank) && c in rank
    decreases rank[c]
  {
    if c in cameFrom then [cameFrom[c]] + Chain(cameFrom, cameFrom[c], rank) else []
  }

  /** The entries of `s` whose cell is not START, in order. */
  function SkipStart(g: Grid, s: seq<Coord>): (r: seq<Coord>)
    requires Shaped(g)
    ensures forall c :: c in r <==> c in s && !Labelled(g, c, Start)
  {
    if s == [] then []
    else (if Labelled(g, s[0], Start) then [] else [s[0]]) + SkipStart(g, s[1..])
  }

  lemma {:induction false} SkipStartAppend(g: Grid, a: seq<Coord>, b: seq<Coord>)
    requires Shaped(g)
    ensures SkipStart(g, a + b) == SkipStart(g, a) + SkipStart(g, b)
    decreases |a|
  {
    if a == [] {
      assert a + b == b;
    } else {
      assert (a + b)[1..] == a[1..] + b;
      SkipStartAppend(g, a[1..], b);
    }
  }

  /** Along the chain the ranks fall strictly, and all lie below the rank of `c`. */
  lemma {:induction false} ChainRanksFall(cameFrom: map<Coord, Coord>, rank: map<Coord, nat>, c: Coord)
    requires Ranked(cameFrom, rank) && c in rank
    ensures forall i :: 0 <= i < |Chain(cameFrom, c, rank)| ==>
              Chain(cameFrom, c, rank)[i] in rank && rank[Chain(cameFrom, c, rank)[i]] < rank[c]
    ensures forall i, j :: 0 <= i < j < |Chain(cameFrom, c, rank)| ==>
              rank[Chain(cameFrom, c, rank)[j]] < rank[Chain(cameFrom, c, rank)[i]]
    decreases rank[c]
  {
    if c in cameFrom {
      var p := cameFrom[c];
      assert p in rank && rank[p] < rank[c];
      ChainRanksFall(cameFrom, rank, p);
      var rest := Chain(cameFrom, p, rank);
      assert forall i :: 0 <= i < |rest| ==> rest[i] in rank && rank[rest[i]] < rank[p];
      assert forall i, j :: 0 <= i < j < |rest| ==> rank[rest[j]] < rank[rest[i]];
      var ch := [p] + rest;
      assert Chain(cameFrom, c, rank) == ch;
      forall i | 0 <= i < |ch|
        ensures ch[i] in rank && rank[ch[i]] < rank[c]
      {
        if i > 0 {
          assert ch[i] == rest[i - 1];
        }
      }
      forall i, j | 0 <= i < j < |ch|
        ensures rank[ch[j]] < rank[ch[i]]
      {
        assert ch[j] == rest[j - 1];
        if i > 0 {
          assert ch[i] == rest[i - 1];
        }
      }
    }
  }

  /** Falling ranks make the chain, with `c` in front, free of repetitions. */
  lemma ChainDistinct(cameFrom: map<Coord, Coord>, rank: map<Coord, nat>, c: Coord)
    requires Ranked(cameFrom, rank) && c in rank
    ensures Distinct([c] + Chain(cameFrom, c, rank))
  {
    ChainRanksFall(cameFrom, rank, c);
    var w := [c] + Chain(cameFrom, c, rank);
    forall i, j | 0 <= i < j < |w|
      ensures w[i] != w[j]
    {
      assert rank[w[j]] < rank[w[i]];
    }
  }

  /**
   * When every ranked cell other than `start` has a predecessor and `start`
   * has none, the chain from `c` ends at `start`, and is empty exactly when
   * `c` is `start`.
   */
  lemma {:induction false} ChainEndsAtStart(cameFrom: map<Coord, Coord>, rank: map<Coord, nat>, c: Coord, start: Coord)
    requires Ranked(cameFrom, rank) && c in rank
    requires start !in cameFrom
    requires forall d :: d in rank ==> d == start || d in cameFrom
    ensures var ch := Chain(cameFrom, c, rank);
      && (ch == [] <==> c == start)
      && (ch != [] ==> ch[|ch| - 1] == start)
    decreases rank[c]
  {
    if c in cameFrom {
      ChainEndsAtStart(cameFrom, rank, cameFrom[c], start);
    }
  }

  /** Read backwards, `w` is a walk: each entry is a neighbour of the entry after it. */
  ghost predicate BackWalk(g: Grid, w: seq<Coord>)
    requires Shaped(g)
  {
    forall i :: 0 <= i < |w| - 1 ==> Linked(g, w[i + 1], w[i])
  }

  /** When every predecessor link is a neighbour step, so is every step of the chain. */
  lemma {:induction false} ChainIsBackWalk(g: Grid, cameFrom: map<Coord, Coord>, rank: map<Coord, nat>, c: Coord)
    requires Shaped(g) && Ranked(cameFrom, rank) && c in rank
    requires forall d :: d in cameFrom ==> Linked(g, cameFrom[d], d)
    ensures BackWalk(g, [c] + Chain(cameFrom, c, rank))
    decreases rank[c]
  {
    if c in cameFrom {
      var p := cameFrom[c];
      ChainIsBackWalk(g, cameFrom, rank, p);
      var tail := [p] + Chain(cameFrom, p, rank);
      var w := [c] + tail;
      assert Chain(cameFrom, c, rank) == tail;
      forall i | 0 <= i < |w| - 1
        ensures Linked(g, w[i + 1], w[i])
      {
        if i > 0 {
          assert w[i] == tail[i - 1] && w[i + 1] == tail[i];
          assert Linked(g, tail[i], tail[i - 1]);
        }
      }
    }
  }

  /**
   * `chain` is what walking back along `cameFrom` from `c` visits: each entry
   * is the recorded predecessor of the one before it, and the walk stops at
   * the first cell without one.
   */
  ghost predicate FollowsLinks(cameFrom: map<Coord, Coord>, c: Coord, chain: seq<Coord>) {
    var w := [c] + chain;
    && (forall i :: 0 <= i < |chain| ==> w[i] in cameFrom && cameFrom[w[i]] == chain[i])
    && w[|chain|] !in cameFrom
  }

  /** The chain of `c` is the walk back along the recorded predecessors. */
  lemma {:induction false} ChainFollowsLinks(cameFrom: map<Coord, Coord>, rank: map<Coord, nat>, c: Coord)
    requires Ranked(cameFrom, rank) && c in rank
    ensures FollowsLinks(cameFrom, c, Chain(cameFrom, c, rank))
    decreases rank[c]
  {
    if c in cameFrom {
      var p := cameFrom[c];
      ChainFollowsLinks(cameFrom, rank, p);
      var tail := Chain(cameFrom, p, rank);
      var chain := [p] + tail;
      assert Chain(cameFrom, c, rank) == chain;
      var w := [c] + chain;
      forall i | 0 <= i < |chain|
        ensures w[i] in cameFrom && cameFrom[w[i]] == chain[i]
      {
        if i > 0 {
          assert w[i] == ([p] + tail)[i - 1] && chain[i] == tail[i - 1];
        }
      }
      assert w[|chain|] == ([p] + tail)[|tail|];
    }
  }

  /** One step back along the chain: the walked prefix grows by the predecessor of `cur`. */
  lemma StepBack(cameFrom: map<Coord, Coord>, rank: map<Coord, nat>, current: Coord, cur: Coord, walked: seq<Coord>)
    requires Ranked(cameFrom, rank) && current in rank && cur in rank && cur in cameFrom
    requires Chain(cameFrom, current, rank) == walked + Chain(cameFrom, cur, rank)
    ensures cameFrom[cur] in rank
    ensures Chain(cameFrom, current, rank) == (walked + [cameFrom[cur]]) + Chain(cameFrom, cameFrom[cur], rank)
  {
    var pos := cameFrom[cur];
    assert Chain(cameFrom, cur, rank) == [pos] + Chain(cameFrom, pos, rank);
    assert walked + ([pos] + Chain(cameFrom, pos, rank)) == (walked + [pos]) + Chain(cameFrom, pos, rank);
  }

  /**
   * reconstructPath(cameFrom, current): follows `cameFrom` back from
   * `current`; every predecessor whose cell is not START is marked PATH and
   * appended, so the result lists the chain nearest-first without START
   * and without `current` itself.
   */
  method ReconstructPath(g: Grid, cameFrom: map<Coord, Coord>, current: Coord, ghost rank: map<Coord, nat>)
    returns (g': Grid, path: seq<Coord>)
    requires Shaped(g) && Ranked(cameFrom, rank) && current in rank
    requires forall c :: c in cameFrom ==> InBounds(cameFrom[c])
    ensures path == SkipStart(g, Chain(cameFrom, current, rank))
    ensures Shaped(g')
    ensures forall c :: InBounds(c) ==> At(g', c) == if c in path then Path else At(g, c)
  {
    g' := g;
    path := [];
    var cur := current;
    ghost var walked: seq<Coord> := [];
    while cur in cameFrom
      invariant cur in rank
      invariant forall i :: 0 <= i < |walked| ==> walked[i] in rank && rank[cur] <= rank[walked[i]]
      invariant Chain(cameFrom, current, rank) == walked + Chain(cameFrom, cur, rank)
      invariant path == SkipStart(g, walked)
      invariant Shaped(g')
      invariant forall c :: InBounds(c) ==> At(g', c) == if c in path then Path else At(g, c)
      decreases rank[cur]
    {
      var pos := cameFrom[cur];
      StepBack(cameFrom, rank, current, cur, walked);
      assert rank[pos] < rank[cur];
      assert pos !in walked;
      SkipStartAppend(g, walked, [pos]);
      assert SkipStart(g, [pos]) == if Labelled(g, pos, Start) then [] else [pos] by {
        assert [pos][1..] == [];
      }
      if At(g', pos) != Start {
        g' := Put(g', pos, Path);
        path := path + [pos];
      }
      walked := walked + [pos];
      cur := pos;
    }
    assert walked + Chain(cameFrom, cur, rank) == walked;
  }
}

=== FILE: searchspec.dfy ===
/**
 * What every one of the four searches promises, stated once: the marks it
 * leaves on the grid, the exploredCount it reports, and the path it returns
 * when the goal is taken off the frontier or when the frontier runs dry.
 */
module SearchSpec {
  import opened GridModel
  import opened Neighbors
  import opened Reconstruction

  /**
   * The code a cell shows after the search: a cell the search expanded
   * becomes EXPLORED unless it is START or GOAL.
   */
  function Mark(v: Cell, expanded: bool): Cell {
    if expanded && v != Start && v != Goal then Explored else v
  }

  /** The expanded cells that add to exploredCount: those that are neither START nor GOAL. */
  function Counted(g: Grid, expanded: set<Coord>): set<Coord>
    requires Shaped(g)
  {
    set c | c in expanded && InBounds(c) && At(g, c) != Start && At(g, c) != Goal
  }

  /**
   * The predecessor chain handed to reconstructPath when the goal is taken
   * off the frontier: expanded cells only, a neighbour step at a time back
   * from `goal`, no cell twice, ending at `start` (empty when goal is start).
   */
  ghost predicate ChainFacts(g: Grid, start: Coord, goal: Coord, expanded: set<Coord>, chain: seq<Coord>)
    requires Shaped(g)
  {
    && (forall i :: 0 <= i < |chain| ==> chain[i] in expanded)
    && (chain == [] <==> goal == start)
    && (chain != [] ==> chain[|chain| - 1] == start)
    && BackWalk(g, [goal] + chain)
    && Distinct([goal] + chain)
  }

  /**
   * The result of a search from `start` to `goal` on grid `g`: the grid
   * `g'`, the returned `path` and `explored` count, and as ghosts whether the
   * goal was taken off the frontier (`reached`), the set of cells expanded
   * (taken off the frontier without being the goal) and the predecessor
   * chain of the goal.
   *  - only expanded cells change, to EXPLORED (START and GOAL keep their
   *    code), apart from the PATH marks of the returned path;
   *  - exploredCount counts each expanded cell that is neither START nor GOAL once;
   *  - every expanded cell is one a search may step onto;
   *  - on reaching the goal the path is the chain without START cells;
   *  - on an empty frontier the path is empty and the expanded cells,
   *    `start` among them, are closed under taking neighbours.
   */
  ghost predicate Outcome(g: Grid, start: Coord, goal: Coord, g': Grid, path: seq<Coord>, explored: nat,
                          reached: bool, expanded: set<Coord>, chain: seq<Coord>)
    requires Shaped(g)
  {
    && Shaped(g')
    && (forall c :: InBounds(c) ==> At(g', c) == if c in path then Path else Mark(At(g, c), c in expanded))
    && explored == |Counted(g, expanded)|
    && (forall c :: c in expanded ==> Walkable(g, c))
    && goal !in expanded
    && (start != goal ==> start in expanded)
    && (reached ==> ChainFacts(g, start, goal, expanded, chain) && path == SkipStart(g, chain))
    && (!reached ==> path == [] && start in expanded && NeighbourClosed(g, expanded))
    && (forall c :: c in expanded ==> Reachable(g, start, c))
  }

  function Reverse(s: seq<Coord>): (r: seq<Coord>)
    ensures |r| == |s|
    ensures forall i :: 0 <= i < |s| ==> r[i] == s[|s| - 1 - i]
  {
    seq(|s|, i requires 0 <= i < |s| => s[|s| - 1 - i])
  }

  lemma BackWalkReversed(g: Grid, w: seq<Coord>)
    requires Shaped(g) && BackWalk(g, w)
    ensures IsWalk(g, Reverse(w))
  {
    var r := Reverse(w);
    forall i | 0 <= i < |r| - 1
      ensures Linked(g, r[i], r[i + 1])
    {
      var j := |w| - 2 - i;
      assert r[i + 1] == w[|w| - 1 - (i + 1)];
      assert r[i] == w[|w| - 1 - i];
      assert |w| - 1 - i == j + 1;
      assert Linked(g, w[j + 1], w[j]);
    }
  }

  /**
   * Every search is exact about reachability: it takes the goal off the
   * frontier exactly when some walk of neighbour steps leads from `start`
   * to `goal`, so an empty path with the goal unreached means unreachable.
   */
  lemma ReachedIffReachable(g: Grid, start: Coord, goal: Coord, g': Grid, path: seq<Coord>, explored: nat,
                            reached: bool, expanded: set<Coord>, chain: seq<Coord>)
    requires Shaped(g) && Outcome(g, start, goal, g', path, explored, reached, expanded, chain)
    ensures reached <==> Reachable(g, start, goal)
  {
    if reached {
      if start == goal {
        assert IsWalk(g, [start]);
      } else {
        var w := [goal] + chain;
        BackWalkReversed(g, w);
        var r := Reverse(w);
        assert r[0] == start && r[|r| - 1] == goal;
      }
    } else {
      ClosedSetSeparates(g, expanded, start, goal);
    }
  }

  /**
   * A search that runs out of cells has expanded exactly the cells reachable
   * from the start: every expanded cell is reachable, and a walk from the
   * start never leaves the neighbour-closed expanded set.
   */
  lemma ExhaustedExpandsReachable(g: Grid, start: Coord, goal: Coord, g': Grid, path: seq<Coord>, explored: nat,
                                  reached: bool, expanded: set<Coord>, chain: seq<Coord>)
    requires Shaped(g) && Outcome(g, start, goal, g', path, explored, reached, expanded, chain)
    ensures !reached ==> expanded == ReachableFrom(g, start)
  {
    if !reached {
      forall c | Reachable(g, start, c)
        ensures c in expanded
      {
        var w :| IsWalk(g, w) && |w| > 0 && w[0] == start && w[|w| - 1] == c;
        WalkStaysInClosedSet(g, expanded, w);
      }
    }
  }

  /** exploredCount never exceeds the number of non-obstacle cells. */
  lemma ExploredBound(g: Grid, start: Coord, goal: Coord, g': Grid, path: seq<Coord>, explored: nat,
                      reached: bool, expanded: set<Coord>, chain: seq<Coord>)
    requires Shaped(g) && Outcome(g, start, goal, g', path, explored, reached, expanded, chain)
    ensures explored <= |Passable(g)|
  {
    var counted := Counted(g, expanded);
    var passable := Passable(g);
    forall c | c in counted
      ensures c in passable
    {
      assert c in expanded;
    }
    SubsetCardinality(counted, passable);
  }

  /**
   * What a caller sees of a finished search: the grid keeps its shape, its
   * obstacles and its START cells, every cell that changed now shows PATH or
   * EXPLORED, and every path cell shows PATH.
   */
  predicate Drawn(g: Grid, g': Grid, path: seq<Coord>)
    requires Shaped(g)
  {
    && Shaped(g')
    && (forall c :: c in path ==> InBounds(c) && At(g', c) == Path)
    && (forall c :: c in AllCoords() ==> (At(g', c) == Obstacle <==> At(g, c) == Obstacle))
    && (forall c :: c in AllCoords() ==> (At(g', c) == Start <==> At(g, c) == Start))
    && (forall c :: c in AllCoords() && At(g', c) != At(g, c) ==> At(g', c) == Path || At(g', c) == Explored)
  }

  /**
   * The visible part of every search's outcome: the marks it draws, a count
   * within the non-obstacle cells, and a non-empty path only towards a
   * reachable goal.
   */
  lemma OutcomeDrawn(g: Grid, start: Coord, goal: Coord, g': Grid, path: seq<Coord>, explored: nat,
                     reached: bool, expanded: set<Coord>, chain: seq<Coord>)
    requires Shaped(g) && Outcome(g, start, goal, g', path, explored, reached, expanded, chain)
    ensures Drawn(g, g', path)
    ensures explored <= |Passable(g)|
    ensures |path| > 0 ==> Reachable(g, start, goal)
  {
    if reached {
      forall c | c in path
        ensures Walkable(g, c) && At(g, c) != Start
      {
        assert c in chain && !Labelled(g, c, Start);
        var i :| 0 <= i < |chain| && chain[i] == c;
        assert c in expanded;
      }
      ReachedIffReachable(g, start, goal, g', path, explored, reached, expanded, chain);
    }
    ExploredBound(g, start, goal, g', path, explored, reached, expanded, chain);
  }

  /**
   * A goal next to the start is always reached, and when the search links
   * it to `start` directly, the path is the chain `[start]` with START
   * cells dropped: on a board whose start cell holds START, no path cell at all.
   */
  lemma NextToStartOutcome(g: Grid, start: Coord, goal: Coord, g': Grid, path: seq<Coord>, explored: nat,
                           reached: bool, expanded: set<Coord>, chain: seq<Coord>)
    requires Shaped(g) && Outcome(g, start, goal, g', path, explored, reached, expanded, chain)
    requires reached && Linked(g, start, goal) ==> chain == [start]
    ensures Linked(g, start, goal) ==> reached && path == SkipStart(g, [start])
  {
    if Linked(g, start, goal) {
      assert IsWalk(g, [start, goal]);
      ReachedIffReachable(g, start, goal, g', path, explored, reached, expanded, chain);
    }
  }

  /**
   * With START drawn at `start` only, the path is the predecessor chain with
   * `start` dropped: goal, path and start together form a walk read
   * backwards, each cell once, so consecutive path cells are 4-adjacent, the
   * first is next to the goal and the last next to the start.
   */
  lemma PathIsChainWithoutStart(g: Grid, start: Coord, goal: Coord, g': Grid, path: seq<Coord>, explored: nat,
                                reached: bool, expanded: set<Coord>, chain: seq<Coord>)
    requires Shaped(g) && Outcome(g, start, goal, g', path, explored, reached, expanded, chain)
    requires Labelled(g, start, Start) && forall c :: Labelled(g, c, Start) ==> c == start
    requires reached && start != goal
    ensures chain == path + [start]
    ensures BackWalk(g, [goal] + path + [start])
    ensures Distinct([goal] + path + [start])
  {
    ChainWithoutStart(g, start, goal, expanded, chain);
    assert [goal] + path + [start] == [goal] + chain;
  }

  /** A chain that ends at the only START cell loses exactly its last entry to SkipStart. */
  lemma ChainWithoutStart(g: Grid, start: Coord, goal: Coord, expanded: set<Coord>, chain: seq<Coord>)
    requires Shaped(g) && ChainFacts(g, start, goal, expanded, chain)
    requires Labelled(g, start, Start) && forall c :: Labelled(g, c, Start) ==> c == start
    requires start != goal
    ensures chain == SkipStart(g, chain) + [start]
  {
    var body := chain[..|chain| - 1];
    assert chain == body + [start];
    SkipStartAppend(g, body, [start]);
    assert SkipStart(g, [start]) == [] by {
      assert [start][1..] == [];
    }
    forall i | 0 <= i < |body|
      ensures !Labelled(g, body[i], Start)
    {
      assert ([goal] + chain)[i + 1] == body[i];
      assert ([goal] + chain)[|chain|] == start;
    }
    SkipStartKeepsUnmarked(g, body);
  }

  /** Dropping START cells from a list that has none changes nothing. */
  lemma {:induction false} SkipStartKeepsUnmarked(g: Grid, s: seq<Coord>)
    requires Shaped(g) && forall i :: 0 <= i < |s| ==> !Labelled(g, s[i], Start)
    ensures SkipStart(g, s) == s
    decreases |s|
  {
    if s != [] {
      SkipStartKeepsUnmarked(g, s[1..]);
    }
  }

  /** Expanding one more cell adds one to the count exactly when that cell is neither START nor GOAL. */
  lemma CountedGrows(g: Grid, expanded: set<Coord>, c: Coord)
    requires Shaped(g) && InBounds(c) && c !in expanded
    ensures |Counted(g, expanded + {c})| == |Counted(g, expanded)| + (if At(g, c) != Start && At(g, c) != Goal then 1 else 0)
  {
    if At(g, c) != Start && At(g, c) != Goal {
      assert Counted(g, expanded + {c}) == Counted(g, expanded) + {c};
    } else {
      assert Counted(g, expanded + {c}) == Counted(g, expanded);
    }
  }

  /** Grids that hold START at the same cells drop the same entries. */
  lemma {:induction false} SkipStartFollowsStartCells(a: Grid, b: Grid, s: seq<Coord>)
    requires Shaped(a) && Shaped(b)
    requires forall c :: InBounds(c) ==> (At(a, c) == Start <==> At(b, c) == Start)
    ensures SkipStart(a, s) == SkipStart(b, s)
    decreases |s|
  {
    if s != [] {
      SkipStartFollowsStartCells(a, b, s[1..]);
    }
  }

  /**
   * The grid part of a search in progress: `gm` is `g` with every expanded
   * cell marked, and `explored` counts the marked ones that are neither
   * START nor GOAL.
   */
  ghost predicate Marked(g: Grid, gm: Grid, expanded: set<Coord>, explored: nat)
    requires Shaped(g)
  {
    && Shaped(gm)
    && (forall c :: InBounds(c) ==> At(gm, c) == Mark(At(g, c), c in expanded))
    && explored == |Counted(g, expanded)|
  }

  /**
   * One expansion: `c` becomes EXPLORED and is counted unless it is START or
   * GOAL, and the marks stay those of the expanded cells.
   */
  lemma MarkOne(g: Grid, gm: Grid, expanded: set<Coord>, explored: nat, c: Coord, gm': Grid, explored': nat)
    requires Shaped(g) && Marked(g, gm, expanded, explored) && InBounds(c) && c !in expanded
    requires At(gm, c) != Start && At(gm, c) != Goal ==> gm' == Put(gm, c, Explored) && explored' == explored + 1
    requires At(gm, c) == Start || At(gm, c) == Goal ==> gm' == gm && explored' == explored
    ensures Marked(g, gm', expanded + {c}, explored')
  {
    assert At(gm, c) == At(g, c);
    CountedGrows(g, expanded, c);
  }

  /**
   * Marking walkable cells neither creates nor removes obstacles or START
   * cells, so neighbour lists and dropped START entries are as on `g`.
   */
  lemma MarkedKeepsLayout(g: Grid, gm: Grid, expanded: set<Coord>, explored: nat)
    requires Shaped(g) && Marked(g, gm, expanded, explored)
    requires forall c :: c in expanded ==> Walkable(g, c)
    ensures forall c :: Walkable(gm, c) <==> Walkable(g, c)
    ensures forall c :: InBounds(c) ==> (At(gm, c) == Start <==> At(g, c) == Start)
  {
  }
}

=== FILE: stablesort.dfy ===
/**
 * `openSet.sort((a, b) => key(a) - key(b))`. Array.prototype.sort is stable,
 * so its result is the one stable ordering by key, which insertion sort
 * computes: an entry goes in front of every entry whose key is not smaller.
 */
module StableSort {
  import opened GridModel

  /** Every entry of `s` has a key. */
  predicate Keyed(s: seq<Coord>, key: map<Coord, int>) {
    forall i :: 0 <= i < |s| ==> s[i] in key
  }

  predicate SortedBy(s: seq<Coord>, key: map<Coord, int>)
    requires Keyed(s, key)
  {
    forall i, j :: 0 <= i < j < |s| ==> key[s[i]] <= key[s[j]]
  }

  function Insert(x: Coord, s: seq<Coord>, key: map<Coord, int>): (r: seq<Coord>)
    requires x in key && Keyed(s, key) && SortedBy(s, key)
    ensures |r| == |s| + 1
    ensures multiset(r) == multiset(s) + multiset{x}
    ensures Keyed(r, key) && SortedBy(r, key)
  {
    if s == [] || key[x] <= key[s[0]] then [x] + s
    else
      var tail := Insert(x, s[1..], key);
      assert s == [s[0]] + s[1..];
      forall j | 0 <= j < |tail|
        ensures key[s[0]] <= key[tail[j]]
      {
        assert tail[j] in multiset(tail);
        if tail[j] != x {
          assert tail[j] in multiset(s[1..]);
          var m :| 0 <= m < |s[1..]| && s[1..][m] == tail[j];
          assert s[1..][m] == s[m + 1];
        }
      }
      [s[0]] + tail
  }

  /** The stable sort by key: a permutation of `s` in non-decreasing key order. */
  function SortBy(s: seq<Coord>, key: map<Coord, int>): (r: seq<Coord>)
    requires Keyed(s, key)
    ensures multiset(r) == multiset(s)
    ensures |r| == |s|
    ensures Keyed(r, key) && SortedBy(r, key)
  {
    if s == [] then []
    else
      assert s == [s[0]] + s[1..];
      Insert(s[0], SortBy(s[1..], key), key)
  }

  /** The entries of `s` whose key is `k`, in their order in `s`. */
  function WithKey(s: seq<Coord>, key: map<Coord, int>, k: int): seq<Coord>
    requires Keyed(s, key)
  {
    if s == [] then []
    else (if key[s[0]] == k then [s[0]] else []) + WithKey(s[1..], key, k)
  }

  lemma {:induction false} WithKeyAppend(a: seq<Coord>, b: seq<Coord>, key: map<Coord, int>, k: int)
    requires Keyed(a, key) && Keyed(b, key)
    ensures Keyed(a + b, key)
    ensures WithKey(a + b, key, k) == WithKey(a, key, k) + WithKey(b, key, k)
    decreases |a|
  {
    if a == [] {
      assert a + b == b;
    } else {
      assert (a + b)[1..] == a[1..] + b;
      WithKeyAppend(a[1..], b, key, k);
    }
  }

  /** Inserting `x` into a sorted list puts it in front of the entries that share its key. */
  lemma {:induction false} InsertWithKey(x: Coord, s: seq<Coord>, key: map<Coord, int>, k: int)
    requires x in key && Keyed(s, key) && SortedBy(s, key)
    ensures WithKey(Insert(x, s, key), key, k) == (if key[x] == k then [x] else []) + WithKey(s, key, k)
    decreases |s|
  {
    if s == [] || key[x] <= key[s[0]] {
      assert ([x] + s)[1..] == s;
    } else {
      var tail := Insert(x, s[1..], key);
      assert ([s[0]] + tail)[1..] == tail;
      InsertWithKey(x, s[1..], key, k);
      if key[x] == k {
        assert key[s[0]] != k;
      }
    }
  }

  /** Stability: among entries with equal keys the sort keeps the prior array order. */
  lemma {:induction false} SortByIsStable(s: seq<Coord>, key: map<Coord, int>, k: int)
    requires Keyed(s, key)
    ensures WithKey(SortBy(s, key), key, k) == WithKey(s, key, k)
    decreases |s|
  {
    if s != [] {
      SortByIsStable(s[1..], key, k);
      InsertWithKey(s[0], SortBy(s[1..], key), key, k);
    }
  }

  lemma SortByIsStableAll(s: seq<Coord>, key: map<Coord, int>)
    requires Keyed(s, key)
    ensures forall k :: WithKey(SortBy(s, key), key, k) == WithKey(s, key, k)
  {
    forall k ensures WithKey(SortBy(s, key), key, k) == WithKey(s, key, k) {
      SortByIsStable(s, key, k);
    }
  }

  /** The position of the first entry of `s` whose key is the least. */
  function FirstMinimum(s: seq<Coord>, key: map<Coord, int>): (k: nat)
    requires Keyed(s, key) && |s| > 0
    ensures k < |s|
    ensures forall i :: 0 <= i < |s| ==> key[s[k]] <= key[s[i]]
    ensures forall i :: 0 <= i < k ==> key[s[k]] < key[s[i]]
  {
    if |s| == 1 then 0
    else
      var k := FirstMinimum(s[1..], key);
      if key[s[0]] <= key[s[1..][k]] then 0 else k + 1
  }

  /**
   * The entry `shift` takes after the sort is the first entry, in the array
   * as it stood before the sort, that has the least key.
   */
  lemma {:induction false} SortByHeadIsFirstMinimum(s: seq<Coord>, key: map<Coord, int>)
    requires Keyed(s, key) && |s| > 0
    ensures SortBy(s, key)[0] == s[FirstMinimum(s, key)]
    decreases |s|
  {
    if |s| > 1 {
      SortByHeadIsFirstMinimum(s[1..], key);
    }
  }
}

=== FILE: uninformed.dfy ===
/**
 * bfs and dfs. Both seed the frontier and the visited set with the start,
 * mark a neighbour visited when it is pushed, and differ only in which end
 * of the frontier the next cell is taken from.
 */
module Uninformed {
  import opened GridModel
  import opened Neighbors
  import opened Reconstruction
  import opened SearchSpec
  import opened Bookkeeping

  /** bfs's queue (`shift` from the front) or dfs's stack (`pop` from the back). */
  datatype Discipline = Fifo | Lifo

  /** Takes the next entry off the frontier: the rest keeps every other entry once. */
  function Take(frontier: seq<Coord>, d: Discipline): (r: (Coord, seq<Coord>))
    requires |frontier| > 0
    ensures d == Fifo ==> frontier == [r.0] + r.1
    ensures d == Lifo ==> frontier == r.1 + [r.0]
    ensures Elems(frontier) == {r.0} + Elems(r.1) && |r.1| == |frontier| - 1
    ensures Distinct(frontier) ==> Distinct(r.1) && r.0 !in r.1
  {
    match d
    case Fifo =>
      var rest := frontier[1..];
      assert forall i :: 0 <= i < |rest| ==> rest[i] == frontier[i + 1];
      assert frontier == [frontier[0]] + rest;
      (frontier[0], rest)
    case Lifo =>
      var rest := frontier[..|frontier| - 1];
      assert forall i :: 0 <= i < |rest| ==> rest[i] == frontier[i];
      assert frontier == rest + [frontier[|frontier| - 1]];
      (frontier[|frontier| - 1], rest)
  }

  /** The frontier, the visited set and the predecessor map of one search. */
  datatype Sweep = Sweep(frontier: seq<Coord>, visited: set<Coord>, cameFrom: map<Coord, Coord>)

  /**
   * The loop over the neighbours of `current`: each one not visited yet is
   * marked visited, gets `current` as predecessor and is pushed, in the
   * order given; visited ones are skipped and keep their predecessor.
   */
  function Discover(s: Sweep, current: Coord, nbrs: seq<Coord>): (r: Sweep)
    ensures r.visited == s.visited + Elems(nbrs)
    ensures r.frontier == s.frontier + Fresh(nbrs, s.visited)
    ensures Elems(r.frontier) == Elems(s.frontier) + (Elems(nbrs) - s.visited)
    ensures r.cameFrom.Keys == s.cameFrom.Keys + (Elems(nbrs) - s.visited)
    ensures forall c {:trigger r.cameFrom[c]} :: c in r.cameFrom ==>
              r.cameFrom[c] == if c in nbrs && c !in s.visited then current else s.cameFrom[c]
    decreases |nbrs|
  {
    if nbrs == [] then s
    else
      var n := nbrs[0];
      var next := if n in s.visited then s else Sweep(s.frontier + [n], s.visited + {n}, s.cameFrom[n := current]);
      ElemsCons(nbrs);
      assert Elems(next.frontier) == Elems(s.frontier) + ({n} - s.visited);
      Discover(next, current, nbrs[1..])
  }

  /** Every push marks one new cell visited, so frontier and visited set grow alike. */
  lemma {:induction false} DiscoverCounts(s: Sweep, current: Coord, nbrs: seq<Coord>)
    ensures |Discover(s, current, nbrs).frontier| + |s.visited| == |s.frontier| + |Discover(s, current, nbrs).visited|
    decreases |nbrs|
  {
    if nbrs != [] {
      var n := nbrs[0];
      var next := if n in s.visited then s else Sweep(s.frontier + [n], s.visited + {n}, s.cameFrom[n := current]);
      DiscoverCounts(next, current, nbrs[1..]);
    }
  }

  /** A frontier of distinct visited cells stays one. */
  lemma {:induction false} DiscoverDistinct(s: Sweep, current: Coord, nbrs: seq<Coord>)
    requires Distinct(s.frontier) && Elems(s.frontier) <= s.visited
    ensures Distinct(Discover(s, current, nbrs).frontier)
    decreases |nbrs|
  {
    if nbrs != [] {
      var n := nbrs[0];
      var next := if n in s.visited then s else Sweep(s.frontier + [n], s.visited + {n}, s.cameFrom[n := current]);
      if n !in s.visited {
        assert forall i :: 0 <= i < |s.frontier| ==> next.frontier[i] == s.frontier[i];
        assert Elems(next.frontier) == Elems(s.frontier) + {n};
      }
      DiscoverDistinct(next, current, nbrs[1..]);
    }
  }

  /** Discovery either keeps a link or adds one from `current` to a neighbour not visited before. */
  lemma DiscoverLinks(s: Sweep, current: Coord, nbrs: seq<Coord>)
    ensures var r := Discover(s, current, nbrs);
      forall c {:trigger r.cameFrom[c]} :: c in r.cameFrom ==>
        (c in s.cameFrom && r.cameFrom[c] == s.cameFrom[c]) || (c in nbrs && c !in s.visited && r.cameFrom[c] == current)
  {
  }

  /**
   * Frontier bookkeeping: the visited cells are the expanded ones and the
   * pending ones, apart from each other; the goal is never expanded; and
   * `start` is the first cell expanded.
   */
  ghost predicate FrontierInv(g: Grid, start: Coord, goal: Coord, s: Sweep, expanded: set<Coord>)
    requires Shaped(g)
  {
    && (forall c :: c in s.visited ==> Walkable(g, c))
    && start in s.visited
    && Distinct(s.frontier)
    && s.visited == expanded + Elems(s.frontier)
    && expanded !! Elems(s.frontier)
    && goal !in expanded
    && ((expanded == {} && s.frontier == [start]) || start in expanded)
    && |s.visited| <= |AllCoords()|
  }

  /** Everything the traversal loop keeps. */
  ghost predicate TraverseInv(g: Grid, start: Coord, goal: Coord, gm: Grid, explored: nat,
                              s: Sweep, expanded: set<Coord>, rank: map<Coord, nat>)
    requires Shaped(g)
  {
    && Marked(g, gm, expanded, explored)
    && FrontierInv(g, start, goal, s, expanded)
    && RankInv(s.cameFrom, expanded, rank)
    && LinkInv(g, start, s.cameFrom, s.visited, expanded)
  }

  /** The measure the loop decreases: unvisited cells plus pending ones. */
  ghost function Pending(s: Sweep): int {
    |AllCoords()| - |s.visited| + |s.frontier|
  }

  /** Before the loop: only `start`, visited and pending. */
  lemma TraverseStarts(g: Grid, start: Coord, goal: Coord)
    requires Shaped(g) && Walkable(g, start)
    ensures TraverseInv(g, start, goal, g, 0, Sweep([start], {start}, map[]), {}, map[])
  {
    assert Counted(g, {}) == {};
    assert Elems([start]) == {start};
    SubsetCardinality({start}, AllCoords());
  }

  /** Moving `current` from the pending to the expanded cells and pushing the new neighbours keeps the partition. */
  lemma PartitionGrows(expanded: set<Coord>, visited: set<Coord>, pending: set<Coord>, rest: set<Coord>,
                       current: Coord, found: set<Coord>, visited': set<Coord>, pending': set<Coord>)
    requires visited == expanded + pending && expanded !! pending
    requires pending == {current} + rest && current !in rest
    requires visited' == visited + found && pending' == rest + (found - visited)
    ensures visited' == (expanded + {current}) + pending' && (expanded + {current}) !! pending'
  {
  }

  /** Expanding `current` (not the goal) keeps the frontier bookkeeping. */
  lemma ExpandKeepsFrontier(g: Grid, start: Coord, goal: Coord, s: Sweep, expanded: set<Coord>,
                            current: Coord, rest: seq<Coord>, nbrs: seq<Coord>)
    requires Shaped(g) && FrontierInv(g, start, goal, s, expanded)
    requires Elems(s.frontier) == {current} + Elems(rest)
    requires Distinct(rest) && current !in rest && current != goal
    requires forall n :: n in nbrs ==> Linked(g, current, n)
    ensures FrontierInv(g, start, goal, Discover(Sweep(rest, s.visited, s.cameFrom), current, nbrs), expanded + {current})
  {
    var s0 := Sweep(rest, s.visited, s.cameFrom);
    var s' := Discover(s0, current, nbrs);
    PartitionGrows(expanded, s.visited, Elems(s.frontier), Elems(rest), current, Elems(nbrs), s'.visited, Elems(s'.frontier));
    DiscoverDistinct(s0, current, nbrs);
    forall c | c in s'.visited
      ensures Walkable(g, c) && c in AllCoords()
    {
      if c !in s.visited {
        assert Linked(g, current, c);
      }
    }
    SubsetCardinality(s'.visited, AllCoords());
    if expanded == {} && s.frontier == [start] {
      assert Elems(s.frontier) == {start};
    }
  }

  /** The predecessor keys are the visited cells other than `start`, before and after discovery. */
  lemma KeysGrow(keys: set<Coord>, keys': set<Coord>, visited: set<Coord>, visited': set<Coord>,
                 found: set<Coord>, start: Coord)
    requires keys == visited - {start} && start in visited
    requires visited' == visited + found && keys' == keys + (found - visited)
    ensures keys' == visited' - {start}
  {
  }

  /** Expanding `current` ranks it last and keeps links pointing to earlier ranks. */
  lemma ExpandKeepsRanks(s: Sweep, expanded: set<Coord>, rank: map<Coord, nat>,
                         current: Coord, rest: seq<Coord>, nbrs: seq<Coord>)
    requires RankInv(s.cameFrom, expanded, rank)
    requires expanded <= s.visited && current in s.visited && current !in expanded
    ensures RankInv(Discover(Sweep(rest, s.visited, s.cameFrom), current, nbrs).cameFrom,
                    expanded + {current}, rank[current := |expanded|])
  {
    var s0 := Sweep(rest, s.visited, s.cameFrom);
    var s' := Discover(s0, current, nbrs);
    DiscoverLinks(s0, current, nbrs);
    RankGrows(rank, rank[current := |expanded|], expanded, current);
    RankedGrows(s.cameFrom, s'.cameFrom, rank, current, |expanded|);
  }

  /** Expanding `current` keeps the predecessor bookkeeping. */
  lemma ExpandKeepsLinks(g: Grid, start: Coord, s: Sweep, expanded: set<Coord>,
                         current: Coord, rest: seq<Coord>, nbrs: seq<Coord>)
    requires Shaped(g) && LinkInv(g, start, s.cameFrom, s.visited, expanded) && start in s.visited
    requires forall n :: n in nbrs <==> Linked(g, current, n)
    ensures var s' := Discover(Sweep(rest, s.visited, s.cameFrom), current, nbrs);
      LinkInv(g, start, s'.cameFrom, s'.visited, expanded + {current})
  {
    var s0 := Sweep(rest, s.visited, s.cameFrom);
    var s' := Discover(s0, current, nbrs);
    DiscoverLinks(s0, current, nbrs);
    LinksGrow(g, s.cameFrom, s'.cameFrom, current, nbrs);
    ClosureGrows(g, expanded, s.visited, s'.visited, current, nbrs);
    KeysGrow(s.cameFrom.Keys, s'.cameFrom.Keys, s.visited, s'.visited, Elems(nbrs), start);
  }

  /**
   * The first pass expands `start`, with only `start` visited, so it links
   * every neighbour of `start`; later passes relink no visited cell.
   */
  lemma ExpandKeepsStartLinks(g: Grid, start: Coord, s: Sweep, expanded: set<Coord>,
                              current: Coord, rest: seq<Coord>, nbrs: seq<Coord>)
    requires Shaped(g) && StartLinks(g, start, s.cameFrom, expanded)
    requires (expanded == {} && s.frontier == [start]) || start in expanded
    requires s.visited == expanded + Elems(s.frontier) && current in s.frontier && s.cameFrom.Keys <= s.visited
    requires forall n :: n in nbrs <==> Linked(g, current, n)
    ensures StartLinks(g, start, Discover(Sweep(rest, s.visited, s.cameFrom), current, nbrs).cameFrom, expanded + {current})
  {
    var s' := Discover(Sweep(rest, s.visited, s.cameFrom), current, nbrs);
    if start !in expanded {
      assert Elems(s.frontier) == {start};
      assert current == start;
    }
    forall n | Linked(g, start, n)
      ensures n in s'.cameFrom && s'.cameFrom[n] == start
    {
      if start !in expanded {
        assert n != start && n !in s.visited;
      }
    }
  }

  /**
   * One pass of the loop that does not meet the goal: `current` is taken
   * off the frontier, leaving `rest`, marked on the grid, and its
   * neighbours, listed on the marked grid, are discovered.
   */
  lemma ExpandStep(g: Grid, start: Coord, goal: Coord, gm: Grid, explored: nat,
                   s: Sweep, expanded: set<Coord>, rank: map<Coord, nat>,
                   current: Coord, rest: seq<Coord>, gm': Grid, explored': nat, nbrs: seq<Coord>)
    requires Shaped(g) && TraverseInv(g, start, goal, gm, explored, s, expanded, rank)
    requires Elems(s.frontier) == {current} + Elems(rest) && |rest| == |s.frontier| - 1
    requires Distinct(rest) && current !in rest && current != goal
    requires InBounds(current)
    requires At(gm, current) != Start && At(gm, current) != Goal ==> gm' == Put(gm, current, Explored) && explored' == explored + 1
    requires At(gm, current) == Start || At(gm, current) == Goal ==> gm' == gm && explored' == explored
    requires Shaped(gm') && forall n :: n in nbrs <==> Linked(gm', current, n)
    ensures TraverseInv(g, start, goal, gm', explored', Discover(Sweep(rest, s.visited, s.cameFrom), current, nbrs),
                        expanded + {current}, rank[current := |expanded|])
    ensures Pending(Discover(Sweep(rest, s.visited, s.cameFrom), current, nbrs)) < Pending(s)
    ensures forall n :: n in nbrs <==> Linked(g, current, n)
  {
    assert current in s.visited && current !in expanded;
    MarkOne(g, gm, expanded, explored, current, gm', explored');
    MarkedKeepsLayout(g, gm', expanded + {current}, explored');
    assert forall n :: n in nbrs <==> Linked(g, current, n);
    ExpandKeepsFrontier(g, start, goal, s, expanded, current, rest, nbrs);
    ExpandKeepsRanks(s, expanded, rank, current, rest, nbrs);
    ExpandKeepsLinks(g, start, s, expanded, current, rest, nbrs);
    DiscoverCounts(Sweep(rest, s.visited, s.cameFrom), current, nbrs);
  }

  /**
   * The loop shared by bfs and dfs: take a cell off the frontier; stop with
   * the reconstructed path when it is the goal; otherwise mark it EXPLORED
   * (counting it) unless it is START or GOAL, and push its unvisited
   * neighbours. The loop ends because every push marks a new cell visited.
   */
  method Traverse(g: Grid, start: Coord, goal: Coord, d: Discipline)
    returns (g': Grid, path: seq<Coord>, explored: nat,
             ghost reached: bool, ghost expanded: set<Coord>, ghost chain: seq<Coord>)
    requires Shaped(g) && Walkable(g, start)
    ensures Outcome(g, start, goal, g', path, explored, reached, expanded, chain)
    ensures reached && Linked(g, start, goal) ==> chain == [start]
  {
    var s := Sweep([start], {start}, map[]);
    g' := g;
    explored := 0;
    expanded := {};
    ghost var rank: map<Coord, nat> := map[];
    TraverseStarts(g, start, goal);
    while |s.frontier| > 0
      invariant TraverseInv(g, start, goal, g', explored, s, expanded, rank)
      invariant StartLinks(g, start, s.cameFrom, expanded)
      decreases Pending(s)
    {
      var (current, rest) := Take(s.frontier, d);
      if current == goal {
        g', path, chain := ReachGoal(g, start, goal, g', explored, s, expanded, rank);
        reached := true;
        return;
      }
      g', explored, s, expanded, rank := Expand(g, start, goal, g', explored, s, expanded, rank, current, rest);
    }
    path := [];
    reached := false;
    chain := [];
    SettledReachable(g, start, s.cameFrom, s.visited, expanded, rank);
    FinishExhausted(g, start, goal, g', explored, expanded);
  }

  /**
   * The rest of one pass after `current`, not the goal, is taken off the
   * frontier, leaving `rest`: mark it EXPLORED (counting it) unless it is
   * START or GOAL, and discover its neighbours.
   */
  method Expand(g: Grid, start: Coord, goal: Coord, gm: Grid, explored: nat,
                s: Sweep, ghost expanded: set<Coord>, ghost rank: map<Coord, nat>, current: Coord, rest: seq<Coord>)
    returns (gm': Grid, explored': nat, s': Sweep, ghost expanded': set<Coord>, ghost rank': map<Coord, nat>)
    requires Shaped(g) && TraverseInv(g, start, goal, gm, explored, s, expanded, rank)
    requires StartLinks(g, start, s.cameFrom, expanded)
    requires Elems(s.frontier) == {current} + Elems(rest) && |rest| == |s.frontier| - 1
    requires Distinct(rest) && current !in rest && current != goal
    ensures TraverseInv(g, start, goal, gm', explored', s', expanded', rank')
    ensures StartLinks(g, start, s'.cameFrom, expanded')
    ensures expanded' == expanded + {current} && Pending(s') < Pending(s)
  {
    assert current in s.visited;
    gm', explored' := gm, explored;
    if At(gm', current) != Start && At(gm', current) != Goal {
      gm' := Put(gm', current, Explored);
      explored' := explored' + 1;
    }
    var nbrs := GetNeighbors(gm', current);
    ExpandStep(g, start, goal, gm, explored, s, expanded, rank, current, rest, gm', explored', nbrs);
    ExpandKeepsStartLinks(g, start, s, expanded, current, rest, nbrs);
    rank' := rank[current := |expanded|];
    expanded' := expanded + {current};
    s' := Discover(Sweep(rest, s.visited, s.cameFrom), current, nbrs);
  }

  /**
   * The goal was taken off the frontier: reconstructPath walks back from it.
   * A goal next to the start has the start as its only predecessor.
   */
  method ReachGoal(g: Grid, start: Coord, goal: Coord, gm: Grid, explored: nat,
                   s: Sweep, ghost expanded: set<Coord>, ghost rank: map<Coord, nat>)
    returns (g': Grid, path: seq<Coord>, ghost chain: seq<Coord>)
    requires Shaped(g) && goal in s.frontier && TraverseInv(g, start, goal, gm, explored, s, expanded, rank)
    requires StartLinks(g, start, s.cameFrom, expanded)
    ensures Outcome(g, start, goal, g', path, explored, true, expanded, chain)
    ensures Linked(g, start, goal) ==> chain == [start]
  {
    GoalFound(g, start, goal, s.cameFrom, s.visited, expanded, rank);
    if Linked(g, start, goal) {
      assert start in expanded;
      GoalNextToStart(g, start, goal, s.cameFrom, expanded, rank[goal := |expanded|]);
    }
    g', path := ReconstructPath(gm, s.cameFrom, goal, rank[goal := |expanded|]);
    chain := Chain(s.cameFrom, goal, rank[goal := |expanded|]);
    FinishReached(g, start, goal, gm, explored, expanded, chain, g', path);
  }

  /** bfs: the queue discipline. */
  method Bfs(g: Grid, start: Coord, goal: Coord)
    returns (g': Grid, path: seq<Coord>, explored: nat,
             ghost reached: bool, ghost expanded: set<Coord>, ghost chain: seq<Coord>)
    requires Shaped(g) && Walkable(g, start)
    ensures Outcome(g, start, goal, g', path, explored, reached, expanded, chain)
    ensures Drawn(g, g', path) && explored <= |Passable(g)|
    ensures |path| > 0 ==> Reachable(g, start, goal)
    ensures Linked(g, start, goal) ==> path == SkipStart(g, [start])
  {
    g', path, explored, reached, expanded, chain := Traverse(g, start, goal, Fifo);
    OutcomeDrawn(g, start, goal, g', path, explored, reached, expanded, chain);
    NextToStartOutcome(g, start, goal, g', path, explored, reached, expanded, chain);
  }

  /** dfs: the stack discipline. */
  method Dfs(g: Grid, start: Coord, goal: Coord)
    returns (g': Grid, path: seq<Coord>, explored: nat,
             ghost reached: bool, ghost expanded: set<Coord>, ghost chain: seq<Coord>)
    requires Shaped(g) && Walkable(g, start)
    ensures Outcome(g, start, goal, g', path, explored, reached, expanded, chain)
    ensures Drawn(g, g', path) && explored <= |Passable(g)|
    ensures |path| > 0 ==> Reachable(g, start, goal)
    ensures Linked(g, start, goal) ==> path == SkipStart(g, [start])
  {
    g', path, explored, reached, expanded, chain := Traverse(g, start, goal, Lifo);
    OutcomeDrawn(g, start, goal, g', path, explored, reached, expanded, chain);
    NextToStartOutcome(g, start, goal, g', path, explored, reached, expanded, chain);
  }
}

=== FILE: wrappers.dfy ===
/** Optional values: the `null` that `startPos` and `goalPos` may hold. */
module Wrappers {

  datatype Option<+T> = None | Some(value: T)
}
